=== FILE: README.md ===
# Voice satellite card — a Dafny model of its audio and protocol core

The voice satellite card listens to the microphone in the browser and
detects a wake word with a cascade of small neural models. It then streams
the following speech to the Home Assistant Assist pipeline over a dedicated
websocket, and reacts to the pipeline's events. This project models the
deterministic bookkeeping behind that as immutable datatypes and pure step
functions, and proves properties about them:

- **Framing** (`framing.dfy`): the audio-worklet processor. It copies
  samples into a 1280-slot buffer and posts the buffer each time the write
  position reaches 1280.
- **SpeechActivity** (`speech_activity.dfy`): the VAD hangover counter. A
  firing frame sets it to 12, a silent frame counts it down, and speech is
  active while it is above 0.
- **WakeWord** (`wake_word.dfy`): `resetState`, `runVad` and `runInference`.
  - Each frame appends five mel frames to the queue.
  - While the queue holds at least 76, a 76-frame window is embedded. The
    embedding is shifted into the 16-slot ring, the ring is classified, and
    the first 8 mel frames are dropped.
  - A score above 0.5 is a detection and one above 0.3 a near miss. Both
    count only while speech is active and no cooldown runs.
  - The spectrogram, embedding, classifier and VAD sessions are
    uninterpreted functions held in an `Engines` record.
- **Protocol** (`protocol.dfy`): `HAConnection`. It covers the http→ws url
  rewrite, request ids from 1, and the pending-request and listener tables
  keyed by request id. It also covers how `handleMessage` routes `result`,
  `run-start` and other events, and the binary audio framing: one handler-id
  byte followed by the little-endian PCM16 bytes. Sent messages are recorded
  in a log.
- **Satellite** (`satellite.dfy`): the mode machine `currentState` ∈
  {idle, listening_ww, assist_active}.
  - Every external happening is a `Stimulus`: the start and stop buttons, a
    frame, an inbound message, the expiry of the 2000 ms cooldown timer and
    of the 1000 ms post-run grace timer, and the end of reply playback.
  - `Step` applies one stimulus.
- **Config** (`config.dfy`): the configured wake word (default `ok_nabu`)
  and the model file chosen for it.

`base.dfy` holds `Option`, the `Byte` and `Int16` ranges, and JavaScript
truthiness of optional numbers and strings.

### Behaviour the model follows from the code

In a few places the code behaves differently from what one might expect;
the model follows the code.

- A `result` with `success=false` rejects the pending run. `switchToAssist`
  does not catch that rejection, so the card stays in assist_active
  (`Satellite.RejectedRunLeavesAssist`). It does not return to listening.
- `stopListening` clears neither the handler id nor the listeners.
- An `error` event returns to listening and resets the detector, but it
  keeps `haPipelineId` and the listener (`Satellite.ErrorEventReturnsToListening`).
  After a later detection, frames are therefore sent with the old handler
  id until the new run starts.
- Playback that ends after the card was stopped still sets listening_ww,
  with the microphone off (`Satellite.PlaybackEndAfterStop`).
- `url.replace('http', 'ws')` replaces the first "http" anywhere in the
  url, not only a leading one (`Protocol.WsUrlReplacesFirstMatch`).
- Only one classifier is ever loaded: the models table is built with the
  single configured wake word.

## Model

| member | source | states |
|---|---|---|
| Framing.Initial | voice-satellite-card.js:341-343 | A fresh processor has a 1280-slot buffer, write position 0 and nothing buffered. |
| Framing.Process | voice-satellite-card.js:340-358 | Every posted frame has exactly 1280 samples. The write position stays below 1280. The posted frames followed by the buffered samples equal the earlier buffered samples followed by the input, so nothing is dropped or duplicated. The frames are the reference chunking of that stream. A missing input channel changes nothing. |
| Framing.SplitIsUnique | voice-satellite-card.js:348-353 | Frames of exactly 1280 samples plus a tail shorter than 1280 can only be the reference chunking of their concatenation. |
| SpeechActivity.Step | voice-satellite-card.js:375-382 | A firing frame sets the counter to 12. A silent frame decrements it only when it is above 0. Speech is active iff the counter is above 0, and the tracker invariant is preserved. |
| SpeechActivity.CounterAfter | voice-satellite-card.js:375-382 | After a run of frames, the counter is 12 minus the number of frames since the last firing frame, clipped at 0. With no firing frame, it is the initial counter minus the run length, clipped at 0. |
| SpeechActivity.ActiveIffRecentFire | voice-satellite-card.js:375-382 | Speech is active iff the VAD fired in one of the last 12 frames, or nothing fired and the initial hangover has not run out. |
| SpeechActivity.SingleFireHangover | voice-satellite-card.js:375-382 | One firing frame followed by n silent frames leaves speech active iff n < 12. Speech is therefore active for exactly 12 frames. |
| WakeWord.ResetState | voice-satellite-card.js:297-315 | Reset gives an empty mel queue and exactly 16 zero embeddings of width 96. It also gives zeroed 128-value VAD hidden and cell state, a zero hangover counter, inactive speech and no cooldown. |
| WakeWord.RunVad | voice-satellite-card.js:439-447 | A failed VAD call reports no speech and keeps the recurrent state. A successful call reports speech iff the probability exceeds 0.5, and the returned state replaces the old one. |
| WakeWord.SplitMel | voice-satellite-card.js:459-461 | Every spectrogram output gives exactly five mel frames. An output of 160 values gives five frames of 32 values each. |
| WakeWord.SplitMelConcat | voice-satellite-card.js:459-461 | The five mel frames cut from a spectrogram output, concatenated, are exactly its first 160 values (fewer if the output is shorter). |
| WakeWord.Decide | voice-satellite-card.js:483-493 | Detection iff score > 0.5 with speech active and no cooldown. Near miss iff 0.3 < score ≤ 0.5 under the same gates. Otherwise nothing. Only a detection sets the cooldown. |
| WakeWord.Gated | voice-satellite-card.js:479-494 | Reference events for a run of scores: near misses up to the first score above 0.5, then that detection. At most one detection is reported, always last, and only for a score above 0.5. Every near miss has a score in (0.3, 0.5]. |
| WakeWord.GatedDetects | voice-satellite-card.js:483-489 | The reference reports a detection iff some score exceeds 0.5. |
| WakeWord.Windows | voice-satellite-card.js:463-496 | The window loop runs until fewer than 76 mel frames remain, and no longer. The queue left is the input queue minus 8 frames per window processed. |
| WakeWord.WindowsEmbedSlidingWindows | voice-satellite-card.js:463-470 | The k-th embedding is the embedding of mel frames 8k to 8k+76 of the queue. |
| WakeWord.WindowsRingFifo | voice-satellite-card.js:472-476 | The ring keeps its length. It ends as the last entries of the old ring followed by the new embeddings, in FIFO order. |
| WakeWord.WindowsClassifyRing | voice-satellite-card.js:472-481 | Each score classifies the ring as it stood right after that window's embedding was pushed. |
| WakeWord.WindowsSilent | voice-satellite-card.js:483-494 | With no speech or an active cooldown, the window loop reports nothing and keeps the cooldown flag. |
| WakeWord.WindowsGating | voice-satellite-card.js:479-494 | With speech and no cooldown, the events are the reference `Gated` of the scores, and the cooldown is set iff some score exceeded 0.5. |
| WakeWord.RunInference | voice-satellite-card.js:453-497 | The five new mel frames are appended. The k-th window embeds queue rows 8k to 8k+76, and the queue left is the appended queue minus its first 8 rows per window, shorter than 76. The ring keeps its length and ends as the old ring followed by the new embeddings, FIFO. Each score classifies the ring right after its push. No event is reported during cooldown or without speech. Otherwise the events are the reference `Gated` of the scores: a score above 0.5 is reported as a detection, always the last event, and a detection is exactly what sets the cooldown. |
| WakeWord.ListenStep | voice-satellite-card.js:370-385 | The hangover update uses the fresh VAD result, and inference runs with the updated speech flag. The k-th embedding is of queue rows 8k to 8k+76, and the queue left is the appended queue minus 8 rows per window. The ring is a fixed-length FIFO of the new embeddings, and each score classifies it right after its push. When the fresh flag is on and no cooldown runs, the events are `Gated` of the scores, and a detection is reported iff a score exceeds 0.5. The detector invariant (queue < 76, ring of 16, valid tracker) is kept. |
| WakeWord.MelQueueAccounting | voice-satellite-card.js:459-495 | Over any run of frames, queue length plus 8 times the windows equals the old length plus 5 per frame. From a reset, the queue holds 5·frames − 8·windows. |
| WakeWord.CooldownSilences | voice-satellite-card.js:483-489 | While the cooldown is on, no run of frames reports any event, and the cooldown stays on. |
| Protocol.FindFrom | voice-satellite-card.js:628 | Returns the first position at or after the start where the pattern occurs, or None iff it occurs nowhere there. |
| Protocol.WsUrl | voice-satellite-card.js:628 | The websocket url always ends in `/api/websocket`. It is 12 characters longer than the base url when "http" occurs in it, and 14 longer when it does not. |
| Protocol.WsUrlOfHttp | voice-satellite-card.js:628 | An `http…` or `https…` url becomes `ws…` or `wss…` followed by `/api/websocket`. |
| Protocol.WsUrlWithoutHttp | voice-satellite-card.js:628 | A url without "http" is only suffixed with `/api/websocket`. |
| Protocol.WsUrlReplacesFirstMatch | voice-satellite-card.js:628 | The rewrite is not anchored: the first occurrence of "http", at any position, becomes "ws", the rest of the url is kept, and `/api/websocket` is appended. |
| Protocol.New | voice-satellite-card.js:625-635 | A new connection stores the websocket url `WsUrl(url)` and the token. It is not authenticated, its next id is 1 and it has no latest id. It has no pending requests, no listeners and nothing sent, and it satisfies the invariant. |
| Protocol.HandleMessage | voice-satellite-card.js:662-699 | `auth_required` sends the token. `auth_ok` authenticates. A `result` rejects and removes its run iff the run is pending and success is false; a successful result changes nothing. `run-start` for a pending id resolves with the handler id and request id, removes the run, and is not dispatched. Any other event goes to its listener if one exists and is dropped otherwise. The invariant is kept. |
| Protocol.RunAssistPipeline | voice-satellite-card.js:701-716 | The request takes the next id and records it as `lastId`. It registers exactly that id as pending and sends the run command with it. Nothing else in the connection changes. The id is fresh: not pending and not listened to. |
| Protocol.Subscribe | voice-satellite-card.js:516 | Adds the request id to the listeners and changes nothing else. The invariant is kept when the id was issued and is no longer pending. |
| Protocol.Unsubscribe | voice-satellite-card.js:544 | Removes the request id from the listeners, changes nothing else, and keeps the invariant. |
| Protocol.Close | voice-satellite-card.js:650-653 | Closing clears `authenticated` and changes nothing else. Pending requests, listeners, ids and sent messages survive, and the invariant is kept. |
| Protocol.SampleBytesRoundTrip | voice-satellite-card.js:720 | The low byte plus 256 times the high byte of a sample is its 16-bit two's-complement value, and reading the two bytes back gives the sample. |
| Protocol.Pcm16Le | voice-satellite-card.js:720 | The byte view of the samples has two bytes per sample. Their order is stated by `Pcm16LeLayout`. |
| Protocol.Pcm16LeLayout | voice-satellite-card.js:720 | Sample i of the chunk occupies bytes 2i (low) and 2i+1 (high) of its byte view, in order. |
| Protocol.AudioMessage | voice-satellite-card.js:719-723 | The message is 1 + 2n bytes: the handler id modulo 256, then exactly the byte view of the samples. |
| Protocol.AudioMessageLayout | voice-satellite-card.js:719-723 | The message is 1 + 2n bytes long. Byte 0 is the handler id modulo 256, and bytes 2i+1 and 2i+2 hold sample i in two's complement, low byte first. |
| Protocol.Pcm16RoundTrip | voice-satellite-card.js:720-723 | Decoding the little-endian bytes gives back every sample, in order. |
| Protocol.AudioMessageRoundTrip | voice-satellite-card.js:718-726 | Parsing a sent audio message gives back the handler byte and all samples. |
| Protocol.SendAudioChunk | voice-satellite-card.js:718-726 | Nothing is sent when the handler id is missing or 0. Otherwise exactly one binary message, the audio message, is sent. |
| Protocol.SettledStaysSettled | voice-satellite-card.js:673-693 | An issued id that is no longer pending is never resolved or rejected again, whatever operations follow. |
| Protocol.RejectedNeverResolves | voice-satellite-card.js:673-693 | A failed `result` for a pending run rejects it, and no later message, not even a stray `run-start`, resolves it. |
| Protocol.ResolvedOnce | voice-satellite-card.js:685-693 | A run resolved by `run-start` is never resolved a second time. |
| Protocol.RequestIdsConsecutive | voice-satellite-card.js:703 | Successive requests get consecutive ids starting from the connection's next id. |
| Protocol.FreshIdsStartAtOne | voice-satellite-card.js:631 | From a new connection, the k-th request gets id k (1, 2, 3, …). |
| Config.WakeWordSetting | voice-satellite-card.js:54 | The configured wake word if it is non-empty, else `ok_nabu`. |
| Config.ModelFile | voice-satellite-card.js:142-147 | Always one of the five model files. |
| Config.ModelFileOfKnownWord | voice-satellite-card.js:142-147 | Each known wake word selects its own model file, and distinct wake words select distinct files. |
| Config.ModelFileDefault | voice-satellite-card.js:142-147 | Any other wake word falls back to `ok_nabu.onnx`. |
| Satellite.Initial | voice-satellite-card.js:16-39 | The constructed card is idle and not listening. It has no handler id and no playback. It keeps the configured pipeline id, holds a new connection, and satisfies the card invariant. |
| Satellite.ReturnToWakeWord | voice-satellite-card.js:606-611 | Sets listening_ww and resets the pipeline state, and changes nothing else. The handler id, the playback flag, the listening flag, the pipeline id and the connection are untouched. |
| Satellite.StopListening | voice-satellite-card.js:417-432 | Always ends idle and not listening, and changes nothing else. The handler id, the detector, the playback flag and the connection are left as they were. |
| Satellite.StartListening | voice-satellite-card.js:321-415 | Ignored while listening. Otherwise the pipeline state is reset, and the card ends listening in listening_ww iff the microphone opened; if it did not, the card ends idle. Only the mode, the listening flag and the detector change: the handler id, the playback flag and the connection are kept. |
| Satellite.RunRequest | voice-satellite-card.js:505-509 | The run goes from stt to tts at 16000 Hz. `pipeline_id` is the configured id when that is truthy, and absent otherwise. |
| Satellite.SwitchToAssist | voice-satellite-card.js:502-511 | Enters assist_active and sends one run request from stt to tts at 16 kHz under the next id, which becomes pending and `lastId`. Nothing else on the card or in the connection changes. |
| Satellite.OnFrame | voice-satellite-card.js:366-396 | A frame is sent as audio iff the card is listening in assist_active with a handler id set. Then exactly one audio message for it is sent and nothing else changes. In listening_ww the card switches to assist_active iff a detection is reported. Without a detection only the detector changes. With one, only the detector, the mode and the connection change, and the connection gains exactly the run request. During cooldown the card stays listening. Nothing changes when idle or not listening. The card invariant is kept. |
| Satellite.OnPipelineEvent | voice-satellite-card.js:524-557 | `tts-end` with a url starts playback and changes nothing else. `run-end` clears the handler id and removes the listener of `lastId`, and changes nothing else. `error` returns to listening_ww with the pipeline state reset. Other events change nothing. Nothing is sent and no pending request changes. |
| Satellite.OnMessage | voice-satellite-card.js:511-517 | A started run stores its handler id, whatever it is, and adds the request to the listeners iff that id is truthy. Nothing else on the card or in the connection changes beyond what `handleMessage` did. A dispatched event is handled by `OnPipelineEvent`. Auth traffic, rejections and unmatched messages change only the connection, as `handleMessage` leaves it. The card invariant is kept. |
| Satellite.MessagesSendNoAudio | voice-satellite-card.js:662-699 | Handling a websocket message never streams audio. At most the auth message is appended to what was sent. |
| Satellite.Step | voice-satellite-card.js:321-611 | Stop always ends idle. Cooldown expiry only clears the cooldown. Entering listening_ww always comes with a full pipeline reset. assist_active is only entered from listening_ww by a frame's detection, which sends the run request. Audio is only sent from assist_active with a handler id set. The card invariant is kept. |
| Satellite.ErrorEventReturnsToListening | voice-satellite-card.js:552-555 | An `error` event for a listened request sets listening_ww with the queue emptied and the cooldown cleared. It keeps the handler id and the listener. |
| Satellite.RunEndStopsAudio | voice-satellite-card.js:540-551 | A `run-end` event clears the handler id and removes the listener of the latest request. The next frame sends no audio. |
| Satellite.RunStartArmsStreaming | voice-satellite-card.js:511-517 | A `run-start` for the pending request stores its non-zero handler id and installs the listener. In assist_active, the next frame is sent tagged with that id. |
| Satellite.RejectedRunLeavesAssist | voice-satellite-card.js:677-681 | A rejected run is removed from the pending requests, but the card stays in assist_active. |
| Satellite.CooldownBlocksDetection | voice-satellite-card.js:483-489 | While cooling down, no run of frames leaves listening_ww or sends anything, and the cooldown stays on. |
| Satellite.PlaybackEndAfterStop | voice-satellite-card.js:566-569 | Playback ending after a stop sets listening_ww while the microphone stays off. |
| Satellite.GraceAndPlaybackEnd | voice-satellite-card.js:546-550 | The grace timer after `run-end` returns to listening_ww, with the pipeline state reset, only from assist_active with no reply playing. Otherwise it changes nothing. The end of playback always clears the playback flag and returns to listening_ww with the pipeline state reset. Neither touches the handler id or the connection. |
| Satellite.DetectionEntersAssist | voice-satellite-card.js:483-488 | Listening for the wake word with no cooldown, a frame after which speech is active and one of whose window scores exceeds 0.5 switches the card to assist_active. It starts the cooldown and sends exactly the run request under the next id. |
| Satellite.ReplyPlaybackHoldsAssist | voice-satellite-card.js:530-573 | After `tts-end` with a url and then `run-end`, the grace timer leaves the card in assist_active while the reply plays. The end of playback then returns it to listening_ww. |

## Left out

- Rendering and UI are left out: `render`, `log`, `setStatus`, `signalVisualFeedback`, `setSpeakingIndicator` and the buttons. They are DOM side effects only.
- Loading and bootstrapping are left out: `init`, `loadScript`, `loadModels`, `initHAConnection` and session creation. The connection is the value built by `Protocol.New`.
- Float arithmetic is left out. The mel rescale `value/10 + 2` is taken as done by `Engines.melspec`. `floatTo16BitPCM` is the parameter `toPcm16`. Scores and probabilities are `real`.
- The 50-entry score history per model is left out. It is only written by reset and is diagnostic.
- Browser and network I/O are left out: the WebSocket itself, JSON parsing, `getUserMedia`, `AudioContext` and worklet wiring, `playBeep`, and the `Audio` element of `playAudio`. Starting playback is modelled as setting `playingTts`. Its `onended` and `onerror` are the `PlaybackEnded` stimulus.
- Timers are left out (2000 ms cooldown, 1000 ms grace, 500 ms border revert). Their expiry is a stimulus that may arrive at any time, which covers every real schedule.
- Async interleaving is left out. Frames are handled one at a time and each `await` is taken as completing at once. A frame that arrives while an earlier one is still being inferred is not modelled.
- Exceptions thrown by the spectrogram, embedding or classifier sessions are left out. Those sessions are total functions. VAD failure is modelled.
- Socket errors are left out: `onerror` rejecting the connect promise, and sends on a closed socket. `onclose` clears `authenticated`.
- Message ids are integers. Malformed JSON and ids of other JSON types are not modelled.
- Protocol.HandleMessage does not model the resolve and reject callbacks of the connect promise as continuations. They are reported as `Connected` and `ConnectFailed` deliveries.

=== FILE: base.dfy ===
/** Shared vocabulary: optional values, the byte and 16-bit sample ranges of
    typed arrays, and the truthiness tests the card applies to optional values. */
module Base {

  /** An optional value; `None` stands for JavaScript's `null`/`undefined`. */
  datatype Option<+T> = None | Some(value: T)

  /** One slot of a `Uint8Array`. */
  type Byte = x: int | 0 <= x < 0x100

  /** One slot of an `Int16Array`. */
  type Int16 = x: int | -0x8000 <= x < 0x8000

  /** JavaScript truthiness of an optional number: missing and 0 are falsy. */
  predicate TruthyNum(x: Option<int>) {
    x.Some? && x.value != 0
  }

  /** JavaScript truthiness of an optional string: missing and "" are falsy. */
  predicate TruthyStr(x: Option<string>) {
    x.Some? && x.value != ""
  }

  /** A sequence of chunks joined end to end. */
  function Flatten<T>(chunks: seq<seq<T>>): seq<T> {
    if |chunks| == 0 then [] else chunks[0] + Flatten(chunks[1..])
  }

  lemma {:induction false} FlattenSnoc<T>(chunks: seq<seq<T>>, x: seq<T>)
    ensures Flatten(chunks + [x]) == Flatten(chunks) + x
  {
    if |chunks| == 0 {
      assert chunks + [x] == [x];
    } else {
      assert (chunks + [x])[1..] == chunks[1..] + [x];
      FlattenSnoc(chunks[1..], x);
    }
  }
}

=== FILE: config.dfy ===
/** Configuration read by the card: the wake word and the classifier model
    file chosen for it. */
module Config {
  import opened Base

  const DefaultWakeWord := "ok_nabu"

  /** `setConfig`: `config.wake_word || 'ok_nabu'`. */
  function WakeWordSetting(configured: Option<string>): (w: string)
    ensures TruthyStr(configured) ==> w == configured.value
    ensures !TruthyStr(configured) ==> w == DefaultWakeWord
    ensures w != ""
  {
    if TruthyStr(configured) then configured.value else DefaultWakeWord
  }

  /** The wake words that have a model of their own. */
  datatype WakeWord = OkNabu | Alexa | HeyJarvis | HeyRhasspy | Nexoos

  function Name(w: WakeWord): string {
    match w
    case OkNabu => "ok_nabu"
    case Alexa => "alexa"
    case HeyJarvis => "hey_jarvis"
    case HeyRhasspy => "hey_rhasspy"
    case Nexoos => "nexoos"
  }

  function File(w: WakeWord): string {
    match w
    case OkNabu => "ok_nabu.onnx"
    case Alexa => "alexa_v0.1.onnx"
    case HeyJarvis => "hey_jarvis_v0.1.onnx"
    case HeyRhasspy => "hey_rhasspy_v0.1.onnx"
    case Nexoos => "nexoos.onnx"
  }

  /** The model file chosen in `loadModels`: a chain of string comparisons
      that falls back to the ok_nabu model. */
  function ModelFile(wakeWord: string): (f: string)
    ensures f in {File(OkNabu), File(Alexa), File(HeyJarvis), File(HeyRhasspy), File(Nexoos)}
  {
    if wakeWord == "alexa" then "alexa_v0.1.onnx"
    else if wakeWord == "hey_jarvis" then "hey_jarvis_v0.1.onnx"
    else if wakeWord == "hey_rhasspy" then "hey_rhasspy_v0.1.onnx"
    else if wakeWord == "ok_nabu" then "ok_nabu.onnx"
    else if wakeWord == "nexoos" then "nexoos.onnx"
    else "ok_nabu.onnx"
  }

  /** Each known wake word selects its own model, and distinct wake words
      select distinct models. */
  lemma ModelFileOfKnownWord(w: WakeWord, v: WakeWord)
    ensures ModelFile(Name(w)) == File(w)
    ensures w != v ==> ModelFile(Name(w)) != ModelFile(Name(v))
  {
  }

  /** Any other wake word falls back to the ok_nabu model. */
  lemma ModelFileDefault(wakeWord: string)
    requires forall w: WakeWord :: wakeWord != Name(w)
    ensures ModelFile(wakeWord) == File(OkNabu)
  {
    assert wakeWord != Name(Alexa) && wakeWord != Name(HeyJarvis) && wakeWord != Name(HeyRhasspy)
      && wakeWord != Name(OkNabu) && wakeWord != Name(Nexoos);
  }
}

=== FILE: framing.dfy ===
/** The audio-worklet framer: samples are copied one by one into a
    fixed 1280-slot buffer, and the whole buffer is posted as a frame each
    time the write position reaches the end. */
module Framing {
  import opened Base

  const FrameSize: nat := 1280

  /** The worklet's `_buffer` and `_pos`. */
  datatype Framer = Framer(buffer: seq<real>, pos: nat)

  predicate Valid(f: Framer) {
    |f.buffer| == FrameSize && f.pos < FrameSize
  }

  /** The samples received since the last posted frame. */
  function Buffered(f: Framer): seq<real>
    requires Valid(f)
  {
    f.buffer[..f.pos]
  }

  /** A freshly constructed processor: a zeroed buffer, position 0. */
  function Initial(): (f: Framer)
    ensures Valid(f) && Buffered(f) == []
  {
    Framer(seq(FrameSize, _ => 0.0), 0)
  }

  /** Reference chunking of a sample stream into whole frames ... */
  function FullFrames(s: seq<real>): seq<seq<real>>
    decreases |s|
  {
    if |s| < FrameSize then [] else [s[..FrameSize]] + FullFrames(s[FrameSize..])
  }

  /** ... and the tail that does not fill a frame. */
  function Remainder(s: seq<real>): seq<real>
    decreases |s|
  {
    if |s| < FrameSize then s else Remainder(s[FrameSize..])
  }

  /** Frames of exactly FrameSize samples followed by a short tail determine
      the split of their concatenation: it is the reference chunking. */
  lemma {:induction false} SplitIsUnique(frames: seq<seq<real>>, rest: seq<real>, s: seq<real>)
    requires forall k | 0 <= k < |frames| :: |frames[k]| == FrameSize
    requires |rest| < FrameSize
    requires Flatten(frames) + rest == s
    ensures frames == FullFrames(s)
    ensures rest == Remainder(s)
  {
    if |frames| == 0 {
      assert s == rest;
    } else {
      var tail := Flatten(frames[1..]) + rest;
      assert s == frames[0] + tail;
      assert s[..FrameSize] == frames[0];
      assert s[FrameSize..] == tail;
      SplitIsUnique(frames[1..], rest, tail);
      assert frames == [frames[0]] + frames[1..];
    }
  }

  /** `AudioProcessor.process`: a missing input channel changes nothing;
      otherwise every sample is stored and each full buffer is posted. */
  method Process(f: Framer, input: Option<seq<real>>) returns (f': Framer, frames: seq<seq<real>>)
    requires Valid(f)
    ensures Valid(f')
    ensures forall k | 0 <= k < |frames| :: |frames[k]| == FrameSize
    ensures input.None? ==> f' == f && frames == []
    ensures input.Some? ==> Flatten(frames) + Buffered(f') == Buffered(f) + input.value
    ensures input.Some? ==> frames == FullFrames(Buffered(f) + input.value)
    ensures input.Some? ==> Buffered(f') == Remainder(Buffered(f) + input.value)
    ensures input.Some? ==> |frames| * FrameSize + f'.pos == f.pos + |input.value|
  {
    f' := f;
    frames := [];
    if input.None? {
      return;
    }
    var data := input.value;
    var buffer := f.buffer;
    var pos: nat := f.pos;
    var i := 0;
    while i < |data|
      invariant 0 <= i <= |data|
      invariant |buffer| == FrameSize && pos < FrameSize
      invariant forall k | 0 <= k < |frames| :: |frames[k]| == FrameSize
      invariant Flatten(frames) + buffer[..pos] == Buffered(f) + data[..i]
      invariant |frames| * FrameSize + pos == f.pos + i
    {
      var before := buffer[..pos];
      buffer := buffer[pos := data[i]];
      assert buffer[..pos + 1] == before + [data[i]];
      assert data[..i + 1] == data[..i] + [data[i]];
      pos := pos + 1;
      calc {
        Flatten(frames) + buffer[..pos];
        Flatten(frames) + (before + [data[i]]);
        (Flatten(frames) + before) + [data[i]];
        (Buffered(f) + data[..i]) + [data[i]];
        Buffered(f) + data[..i + 1];
      }
      if pos == FrameSize {
        assert buffer[..pos] == buffer;
        FlattenSnoc(frames, buffer);
        frames := frames + [buffer];
        pos := 0;
        assert buffer[..pos] == [];
      }
      i := i + 1;
    }
    assert data[..i] == data;
    f' := Framer(buffer, pos);
    SplitIsUnique(frames, Buffered(f'), Buffered(f) + data);
  }
}

=== FILE: protocol.dfy ===
/** The dedicated Home Assistant websocket client: authentication replies,
    request-id allocation, correlation of `result` and `event` messages with
    pending pipeline runs, per-request event listeners, and the binary audio
    framing. The socket is a log of the messages sent. */
module Protocol {
  import opened Base

  /** Pipeline event types the card distinguishes. */
  datatype EventType = RunStart | SttStart | SttEnd | TtsStart | TtsEnd | RunEnd | Error | OtherEvent(name: string)

  /** The parts of `event.data` the core reads: the streaming handler id of
      `run-start` (`runner_data.stt_binary_handler_id`) and the playback url
      of `tts-end` (`tts_output.url`). */
  datatype EventData = EventData(handlerId: Option<int>, ttsUrl: Option<string>)

  datatype PipelineEvent = PipelineEvent(kind: EventType, data: EventData)

  /** Parsed inbound messages. */
  datatype Inbound =
    | AuthRequired
    | AuthOk
    | AuthInvalid
    | Result(id: int, success: bool, error: string)
    | Event(id: int, event: PipelineEvent)
    | OtherMessage(kind: string)

  /** The `input` object of a pipeline run. */
  datatype PipelineInput = PipelineInput(sampleRate: int, pipelineId: Option<string>)

  datatype PipelineRequest = PipelineRequest(startStage: string, endStage: string, input: PipelineInput)

  /** Outbound messages: JSON commands and binary audio frames. */
  datatype Outbound =
    | Auth(token: string)
    | RunPipeline(id: int, request: PipelineRequest)
    | Binary(bytes: seq<Byte>)

  /** `HAConnection`. Every event listener is the same callback, so the
      listener map is kept as its key set. A request is pending until its
      run starts; only then can a listener be installed for it. */
  datatype Connection = Connection(
    url: string,
    token: string,
    nextId: int,
    lastId: Option<int>,
    pending: map<int, PipelineRequest>,
    listeners: set<int>,
    authenticated: bool,
    sent: seq<Outbound>)

  /** What handling one message hands back to the card. */
  datatype Delivery =
    | NoDelivery
    | Connected
    | ConnectFailed
    | RunStarted(requestId: int, handlerId: Option<int>)
    | RunRejected(requestId: int, error: string)
    | Dispatched(requestId: int, event: PipelineEvent)

  datatype Handled = Handled(conn: Connection, delivery: Delivery)

  // ---------------------------------------------------------------------
  // URL rewrite

  predicate MatchAt(s: string, pat: string, i: nat) {
    i + |pat| <= |s| && s[i..i + |pat|] == pat
  }

  /** The first position at or after `from` where `pat` occurs. */
  function FindFrom(s: string, pat: string, from: nat): (r: Option<nat>)
    requires from <= |s|
    ensures r.Some? ==> from <= r.value && MatchAt(s, pat, r.value)
    ensures r.Some? ==> forall j | from <= j < r.value :: !MatchAt(s, pat, j)
    ensures r.None? ==> forall j | from <= j <= |s| :: !MatchAt(s, pat, j)
    decreases |s| - from
  {
    if from + |pat| > |s| then None
    else if s[from..from + |pat|] == pat then Some(from)
    else FindFrom(s, pat, from + 1)
  }

  /** `String.prototype.replace` with a string pattern: only the first
      occurrence is replaced. */
  function ReplaceFirst(s: string, pat: string, rep: string): string {
    match FindFrom(s, pat, 0)
    case None => s
    case Some(i) => s[..i] + rep + s[i + |pat|..]
  }

  /** The websocket url built in the constructor. */
  function WsUrl(url: string): (u: string)
    ensures |u| >= 14 && u[|u| - 14..] == "/api/websocket"
    ensures FindFrom(url, "http", 0).Some? ==> |u| == |url| + 12
    ensures FindFrom(url, "http", 0).None? ==> |u| == |url| + 14
  {
    ReplaceFirst(url, "http", "ws") + "/api/websocket"
  }

  /** An http or https base url becomes the ws or wss websocket url. */
  lemma WsUrlOfHttp(rest: string)
    ensures WsUrl("http" + rest) == "ws" + rest + "/api/websocket"
  {
  }

  /** A url that does not mention "http" is kept and only suffixed. */
  lemma WsUrlWithoutHttp(url: string)
    requires forall j | 0 <= j <= |url| :: !MatchAt(url, "http", j)
    ensures WsUrl(url) == url + "/api/websocket"
  {
  }

  /** The rewrite is not anchored: the first "http" anywhere in the url,
      at whatever position, is the one replaced. */
  lemma WsUrlReplacesFirstMatch(s: string, i: nat)
    requires MatchAt(s, "http", i)
    requires forall j | 0 <= j < i :: !MatchAt(s, "http", j)
    ensures WsUrl(s) == s[..i] + "ws" + s[i + 4..] + "/api/websocket"
  {
  }

  // ---------------------------------------------------------------------
  // Connection state

  /** The constructor: ids start at 1, no requests, no listeners. */
  function New(url: string, token: string): (c: Connection)
    ensures Valid(c) && c.pending == map[] && c.listeners == {} && c.sent == []
    ensures c.url == WsUrl(url) && c.token == token && !c.authenticated
    ensures c.nextId == 1 && c.lastId == None
  {
    Connection(WsUrl(url), token, 1, None, map[], {}, false, [])
  }

  /** Ids of the run commands in a send log, in order. */
  function RunIds(sent: seq<Outbound>): seq<int> {
    if |sent| == 0 then []
    else if sent[0].RunPipeline? then [sent[0].id] + RunIds(sent[1..])
    else RunIds(sent[1..])
  }

  lemma {:induction false} RunIdsAppend(a: seq<Outbound>, b: seq<Outbound>)
    ensures RunIds(a + b) == RunIds(a) + RunIds(b)
    decreases |a|
  {
    if |a| == 0 {
      assert a + b == b;
    } else {
      assert (a + b)[0] == a[0];
      assert (a + b)[1..] == a[1..] + b;
      RunIdsAppend(a[1..], b);
    }
  }

  /** 1, 2, ..., n-1. */
  function IdsBelow(n: int): seq<int>
    requires n >= 1
  {
    seq(n - 1, i => i + 1)
  }

  /** Connection invariant: the run commands sent so far carry the ids
      1, 2, ... in order, `nextId` is the next one, `lastId` the latest,
      every pending request and listener belongs to an issued id, and no
      id is both pending and listened to. */
  predicate Valid(c: Connection) {
    && c.nextId >= 1
    && RunIds(c.sent) == IdsBelow(c.nextId)
    && (c.lastId.None? <==> c.nextId == 1)
    && (c.lastId.Some? ==> c.lastId.value == c.nextId - 1)
    && (forall k | k in c.pending :: 1 <= k < c.nextId)
    && (forall k | k in c.listeners :: 1 <= k < c.nextId)
    && c.pending.Keys !! c.listeners
  }

  /** `handleMessage`. */
  function HandleMessage(c: Connection, m: Inbound): (h: Handled)
    ensures h.conn.nextId == c.nextId && h.conn.lastId == c.lastId
    ensures h.conn.listeners == c.listeners && h.conn.token == c.token && h.conn.url == c.url
    // authentication
    ensures m.AuthRequired? <==> h.conn.sent == c.sent + [Auth(c.token)]
    ensures !m.AuthRequired? ==> h.conn.sent == c.sent
    ensures h.delivery == Connected <==> m.AuthOk?
    ensures h.delivery == ConnectFailed <==> m.AuthInvalid?
    ensures h.conn.authenticated == (c.authenticated || m.AuthOk?)
    // a failed result rejects and forgets its pending run; a successful one is ignored
    ensures h.delivery.RunRejected? <==> m.Result? && m.id in c.pending && !m.success
    ensures h.delivery.RunRejected? ==> h.delivery == RunRejected(m.id, m.error)
    // run-start resolves and forgets its pending run and is not dispatched
    ensures h.delivery.RunStarted? <==> m.Event? && m.id in c.pending && m.event.kind == RunStart
    ensures h.delivery.RunStarted? ==> h.delivery == RunStarted(m.id, m.event.data.handlerId)
    ensures h.delivery.RunRejected? || h.delivery.RunStarted? ==> h.conn.pending == c.pending - {m.id}
    ensures !(h.delivery.RunRejected? || h.delivery.RunStarted?) ==> h.conn.pending == c.pending
    // every other event goes to its listener, if any
    ensures h.delivery.Dispatched? <==>
      m.Event? && !(m.id in c.pending && m.event.kind == RunStart) && m.id in c.listeners
    ensures h.delivery.Dispatched? ==> h.delivery == Dispatched(m.id, m.event)
    ensures Valid(c) ==> Valid(h.conn)
  {
    match m
    case AuthRequired =>
      var c' := c.(sent := c.sent + [Auth(c.token)]);
      RunIdsAppend(c.sent, [Auth(c.token)]);
      Handled(c', NoDelivery)
    case AuthOk => Handled(c.(authenticated := true), Connected)
    case AuthInvalid => Handled(c, ConnectFailed)
    case Result(id, success, error) =>
      if id in c.pending && !success then Handled(c.(pending := c.pending - {id}), RunRejected(id, error))
      else Handled(c, NoDelivery)
    case Event(id, event) =>
      if id in c.pending && event.kind == RunStart then
        Handled(c.(pending := c.pending - {id}), RunStarted(id, event.data.handlerId))
      else if id in c.listeners then Handled(c, Dispatched(id, event))
      else Handled(c, NoDelivery)
    case OtherMessage(_) => Handled(c, NoDelivery)
  }

  datatype Issued = Issued(conn: Connection, id: int)

  /** `runAssistPipeline`: take the next id, remember it as the latest,
      register the pending run and send the command. The id is fresh. */
  function RunAssistPipeline(c: Connection, request: PipelineRequest): (r: Issued)
    ensures r.id == c.nextId && r.conn.nextId == c.nextId + 1 && r.conn.lastId == Some(r.id)
    ensures r.conn.pending == c.pending[r.id := request]
    ensures r.conn.sent == c.sent + [RunPipeline(r.id, request)]
    // only the ids, the pending requests and the send log change
    ensures r.conn == c.(nextId := r.conn.nextId, lastId := r.conn.lastId, pending := r.conn.pending, sent := r.conn.sent)
    ensures Valid(c) ==> Valid(r.conn) && r.id !in c.pending && r.id !in c.listeners
  {
    var id := c.nextId;
    var c' := c.(nextId := id + 1, lastId := Some(id), pending := c.pending[id := request],
                 sent := c.sent + [RunPipeline(id, request)]);
    RunIdsAppend(c.sent, [RunPipeline(id, request)]);
    assert Valid(c) ==> IdsBelow(c.nextId) + [id] == IdsBelow(id + 1);
    Issued(c', id)
  }

  /** Installing the card's listener for a request id. */
  function Subscribe(c: Connection, id: int): (c': Connection)
    ensures c'.listeners == c.listeners + {id}
    ensures c' == c.(listeners := c'.listeners)
    ensures Valid(c) && 1 <= id < c.nextId && id !in c.pending ==> Valid(c')
  {
    c.(listeners := c.listeners + {id})
  }

  /** Removing the listener of a request id. */
  function Unsubscribe(c: Connection, id: int): (c': Connection)
    ensures c'.listeners == c.listeners - {id}
    ensures c' == c.(listeners := c'.listeners)
    ensures Valid(c) ==> Valid(c')
  {
    c.(listeners := c.listeners - {id})
  }

  /** The socket's close handler. */
  function Close(c: Connection): (c': Connection)
    ensures !c'.authenticated
    // pending requests and listeners survive the close: nothing rejects them
    ensures c' == c.(authenticated := c'.authenticated)
    ensures Valid(c) ==> Valid(c')
  {
    c.(authenticated := false)
  }

  // ---------------------------------------------------------------------
  // Binary audio framing

  /** The two little-endian bytes of a 16-bit sample, as the bytes of an
      `Int16Array` buffer on a little-endian platform. */
  function SampleBytes(x: Int16): (b: seq<Byte>)
    ensures |b| == 2
  {
    var u := (x as int) % 0x10000;
    [u % 0x100, u / 0x100]
  }

  /** Reading a sample back from its two bytes. */
  function SampleOf(lo: Byte, hi: Byte): Int16 {
    var u := (lo as int) + 0x100 * (hi as int);
    if u >= 0x8000 then u - 0x10000 else u
  }

  /** The low byte plus 256 times the high byte is the sample's
      two's-complement value, and reading the bytes back gives the sample. */
  lemma SampleBytesRoundTrip(x: Int16)
    ensures (SampleBytes(x)[0] as int) + 0x100 * (SampleBytes(x)[1] as int) == (x as int) % 0x10000
    ensures SampleOf(SampleBytes(x)[0], SampleBytes(x)[1]) == x
  {
  }

  function Pcm16Le(samples: seq<Int16>): (bytes: seq<Byte>)
    ensures |bytes| == 2 * |samples|
    decreases |samples|
  {
    if |samples| == 0 then [] else SampleBytes(samples[0]) + Pcm16Le(samples[1..])
  }

  /** Sample i occupies bytes 2i (low) and 2i+1 (high). */
  lemma {:induction false} Pcm16LeLayout(samples: seq<Int16>)
    ensures forall i | 0 <= i < |samples| ::
      Pcm16Le(samples)[2 * i .. 2 * i + 2] == SampleBytes(samples[i])
    decreases |samples|
  {
    if |samples| > 0 {
      Pcm16LeLayout(samples[1..]);
      var b := Pcm16Le(samples);
      var rest := Pcm16Le(samples[1..]);
      assert b == SampleBytes(samples[0]) + rest;
      forall i | 0 <= i < |samples|
        ensures b[2 * i .. 2 * i + 2] == SampleBytes(samples[i])
      {
        if i > 0 {
          assert b[2 * i .. 2 * i + 2] == rest[2 * (i - 1) .. 2 * (i - 1) + 2];
          assert samples[1..][i - 1] == samples[i];
        }
      }
    }
  }

  /** The binary message: the handler id, stored into a `Uint8Array` slot
      (so reduced modulo 256), followed by the samples' bytes. */
  function AudioMessage(handlerId: int, samples: seq<Int16>): (bytes: seq<Byte>)
    ensures |bytes| == 1 + 2 * |samples|
    ensures bytes[0] == handlerId % 0x100
    ensures bytes[1..] == Pcm16Le(samples)
  {
    [handlerId % 0x100] + Pcm16Le(samples)
  }

  /** Byte layout of an audio message: byte 0 is the handler id modulo
      256, and sample i is bytes 2i+1 (low) and 2i+2 (high). */
  lemma AudioMessageLayout(handlerId: int, samples: seq<Int16>)
    ensures var bytes := AudioMessage(handlerId, samples);
      && |bytes| == 1 + 2 * |samples|
      && bytes[0] == handlerId % 0x100
      && forall i | 0 <= i < |samples| ::
        (bytes[2 * i + 1] as int) + 0x100 * (bytes[2 * i + 2] as int) == (samples[i] as int) % 0x10000
  {
    var bytes := AudioMessage(handlerId, samples);
    Pcm16LeLayout(samples);
    forall i | 0 <= i < |samples|
      ensures (bytes[2 * i + 1] as int) + 0x100 * (bytes[2 * i + 2] as int) == (samples[i] as int) % 0x10000
    {
      SampleBytesRoundTrip(samples[i]);
      assert bytes[2 * i + 1 .. 2 * i + 3] == Pcm16Le(samples)[2 * i .. 2 * i + 2];
    }
  }

  function DecodePcm16Le(bytes: seq<Byte>): seq<Int16>
    requires |bytes| % 2 == 0
    decreases |bytes|
  {
    if |bytes| == 0 then [] else [SampleOf(bytes[0], bytes[1])] + DecodePcm16Le(bytes[2..])
  }

  /** Splitting a binary message into handler byte and samples. */
  function ParseAudioMessage(bytes: seq<Byte>): Option<(Byte, seq<Int16>)> {
    if |bytes| % 2 != 1 then None
    else Some((bytes[0], DecodePcm16Le(bytes[1..])))
  }

  lemma {:induction false} Pcm16RoundTrip(samples: seq<Int16>)
    ensures DecodePcm16Le(Pcm16Le(samples)) == samples
    decreases |samples|
  {
    if |samples| > 0 {
      var b := Pcm16Le(samples);
      var x := samples[0];
      var rest := Pcm16Le(samples[1..]);
      assert b == SampleBytes(x) + rest;
      assert b[0] == SampleBytes(x)[0] && b[1] == SampleBytes(x)[1];
      SampleBytesRoundTrip(x);
      assert b[2..] == rest;
      Pcm16RoundTrip(samples[1..]);
      assert samples == [x] + samples[1..];
    }
  }

  /** The framing loses nothing: parsing a sent message gives back the
      handler byte and every sample in order. */
  lemma AudioMessageRoundTrip(handlerId: int, samples: seq<Int16>)
    ensures ParseAudioMessage(AudioMessage(handlerId, samples)) == Some((handlerId % 0x100, samples))
  {
    var bytes := AudioMessage(handlerId, samples);
    assert |bytes| % 2 == 1;
    Pcm16RoundTrip(samples);
  }

  /** `sendAudioChunk`: nothing is sent without a (truthy) handler id;
      otherwise exactly one binary message is sent. */
  function SendAudioChunk(c: Connection, handlerId: Option<int>, samples: seq<Int16>): (c': Connection)
    ensures !TruthyNum(handlerId) ==> c' == c
    ensures TruthyNum(handlerId) ==>
      c' == c.(sent := c.sent + [Binary(AudioMessage(handlerId.value, samples))])
    ensures Valid(c) ==> Valid(c')
  {
    if !TruthyNum(handlerId) then c
    else
      RunIdsAppend(c.sent, [Binary(AudioMessage(handlerId.value, samples))]);
      c.(sent := c.sent + [Binary(AudioMessage(handlerId.value, samples))])
  }

  // ---------------------------------------------------------------------
  // Correlation over time

  /** What can happen to a connection: a message arrives, a run is
      requested, audio is sent, a listener is added or removed, the socket
      closes. */
  datatype Op =
    | Receive(m: Inbound)
    | Request(request: PipelineRequest)
    | SendAudio(handlerId: Option<int>, samples: seq<Int16>)
    | Listen(id: int)
    | Unlisten(id: int)
    | Closed

  function Apply(c: Connection, op: Op): Handled {
    match op
    case Receive(m) => HandleMessage(c, m)
    case Request(r) => Handled(RunAssistPipeline(c, r).conn, NoDelivery)
    case SendAudio(h, s) => Handled(SendAudioChunk(c, h, s), NoDelivery)
    case Listen(id) => Handled(Subscribe(c, id), NoDelivery)
    case Unlisten(id) => Handled(Unsubscribe(c, id), NoDelivery)
    case Closed => Handled(Close(c), NoDelivery)
  }

  /** The deliveries produced by a sequence of operations. */
  function Deliveries(c: Connection, ops: seq<Op>): seq<Delivery>
    decreases |ops|
  {
    if |ops| == 0 then []
    else
      var h := Apply(c, ops[0]);
      [h.delivery] + Deliveries(h.conn, ops[1..])
  }

  /** A delivery that resolves or rejects the run with this id. */
  predicate Settles(d: Delivery, id: int) {
    (d.RunStarted? || d.RunRejected?) && d.requestId == id
  }

  /** Once an id has been issued and is no longer pending, it never becomes
      pending again, so it is never resolved or rejected again. */
  lemma {:induction false} SettledStaysSettled(c: Connection, id: int, ops: seq<Op>)
    requires id < c.nextId && id !in c.pending
    ensures forall i | 0 <= i < |Deliveries(c, ops)| :: !Settles(Deliveries(c, ops)[i], id)
    decreases |ops|
  {
    if |ops| > 0 {
      var h := Apply(c, ops[0]);
      SettledStaysSettled(h.conn, id, ops[1..]);
    }
  }

  /** A `result` with success=false for a pending run rejects it, and no
      later message (in particular a stray `run-start`) resolves it. */
  lemma RejectedNeverResolves(c: Connection, id: int, error: string, ops: seq<Op>)
    requires Valid(c) && id in c.pending
    ensures HandleMessage(c, Result(id, false, error)).delivery == RunRejected(id, error)
    ensures var c' := HandleMessage(c, Result(id, false, error)).conn;
      forall i | 0 <= i < |Deliveries(c', ops)| ::
        !(Deliveries(c', ops)[i].RunStarted? && Deliveries(c', ops)[i].requestId == id)
  {
    SettledStaysSettled(HandleMessage(c, Result(id, false, error)).conn, id, ops);
  }

  /** Once resolved by `run-start`, a run is not resolved a second time. */
  lemma ResolvedOnce(c: Connection, id: int, event: PipelineEvent, ops: seq<Op>)
    requires Valid(c) && id in c.pending && event.kind == RunStart
    ensures HandleMessage(c, Event(id, event)).delivery == RunStarted(id, event.data.handlerId)
    ensures var c' := HandleMessage(c, Event(id, event)).conn;
      forall i | 0 <= i < |Deliveries(c', ops)| ::
        !(Deliveries(c', ops)[i].RunStarted? && Deliveries(c', ops)[i].requestId == id)
  {
    SettledStaysSettled(HandleMessage(c, Event(id, event)).conn, id, ops);
  }

  /** Requests issued one after another from a fresh connection get the ids
      1, 2, 3, ... */
  function RequestAll(c: Connection, requests: seq<PipelineRequest>): (r: (Connection, seq<int>))
    decreases |requests|
  {
    if |requests| == 0 then (c, [])
    else
      var first := RunAssistPipeline(c, requests[0]);
      var rest := RequestAll(first.conn, requests[1..]);
      (rest.0, [first.id] + rest.1)
  }

  lemma {:induction false} RequestIdsConsecutive(c: Connection, requests: seq<PipelineRequest>)
    ensures var r := RequestAll(c, requests);
      |r.1| == |requests| && r.0.nextId == c.nextId + |requests|
      && forall i | 0 <= i < |requests| :: r.1[i] == c.nextId + i
    decreases |requests|
  {
    if |requests| > 0 {
      RequestIdsConsecutive(RunAssistPipeline(c, requests[0]).conn, requests[1..]);
    }
  }

  lemma FreshIdsStartAtOne(url: string, token: string, requests: seq<PipelineRequest>)
    ensures var ids := RequestAll(New(url, token), requests).1;
      |ids| == |requests| && forall i | 0 <= i < |ids| :: ids[i] == i + 1
  {
    RequestIdsConsecutive(New(url, token), requests);
  }
}

=== FILE: satellite.dfy ===
/** The card's mode machine (`currentState`: idle, listening_ww,
    assist_active) driven by explicit stimuli: the start and stop buttons,
    frames from the worklet, websocket messages, and the expiry of the
    cooldown timer, the post-run grace timer and reply playback. */
module Satellite {
  import opened Base
  import opened WakeWord
  import Protocol

  const SampleRate: int := 16000

  datatype Mode = Idle | ListeningWakeWord | AssistActive

  /** The card's state: `currentState`, `isListening`, the detector fields,
      `haPipelineId`, `isPlayingTTS`, the configured pipeline id and the
      connection. */
  datatype Card = Card(
    mode: Mode,
    listening: bool,
    det: Detector,
    handlerId: Option<int>,
    playingTts: bool,
    pipelineId: Option<string>,
    conn: Protocol.Connection)

  /** Everything that can happen to the card. Timer expiries and the end of
      playback arrive as stimuli of their own. */
  datatype Stimulus =
    | StartPressed(captureOk: bool)
    | StopPressed
    | FrameReady(frame: AudioFrame)
    | MessageIn(message: Protocol.Inbound)
    | CooldownElapsed
    | GraceElapsed
    | PlaybackEnded
    | SocketClosed

  /** The card as constructed, with its connection opened. */
  function Initial(pipelineId: Option<string>, url: string, token: string): (c: Card)
    ensures Inv(c) && c.mode == Idle && !c.listening
    ensures c.handlerId == None && !c.playingTts && c.pipelineId == pipelineId
    ensures c.conn == Protocol.New(url, token)
  {
    Card(Idle, false, Unstarted(), None, false, pipelineId, Protocol.New(url, token))
  }

  /** The detector is either as constructed (only before the first start)
      or valid, and the connection keeps its invariant. */
  predicate Inv(c: Card) {
    && Protocol.Valid(c.conn)
    && (Valid(c.det) || (c.mode == Idle && c.det == Unstarted()))
  }

  /** The pipeline run requested on a detection: stt to tts at 16 kHz, with
      the configured pipeline id when one is set. */
  function RunRequest(pipelineId: Option<string>): (r: Protocol.PipelineRequest)
    ensures r.startStage == "stt" && r.endStage == "tts" && r.input.sampleRate == 16000
    // `pipeline_id` is only set when the configured id is truthy
    ensures TruthyStr(pipelineId) ==> r.input.pipelineId == pipelineId
    ensures !TruthyStr(pipelineId) ==> r.input.pipelineId == None
  {
    Protocol.PipelineRequest("stt", "tts",
      Protocol.PipelineInput(SampleRate, if TruthyStr(pipelineId) then pipelineId else None))
  }

  /** `returnToWakeWord`. */
  function ReturnToWakeWord(c: Card): (c': Card)
    ensures c'.mode == ListeningWakeWord && c'.det == ResetState()
    // nothing else changes: handler id, playback, listening and the connection are kept
    ensures c' == c.(mode := c'.mode, det := c'.det)
  {
    c.(mode := ListeningWakeWord, det := ResetState())
  }

  /** `stopListening`: always ends idle; the handler id and listeners are
      left as they are. */
  function StopListening(c: Card): (c': Card)
    ensures c'.mode == Idle && !c'.listening
    // nothing else changes: the detector, handler id, playback and connection are kept
    ensures c' == c.(mode := c'.mode, listening := c'.listening)
  {
    c.(listening := false, mode := Idle)
  }

  /** `startListening`: ignored while listening; otherwise the pipeline
      state is reset and, if the microphone could be opened, listening for
      the wake word begins, else the card stops. */
  function StartListening(c: Card, captureOk: bool): (c': Card)
    ensures c.listening ==> c' == c
    ensures !c.listening ==> c'.det == ResetState() && c'.conn == c.conn
    ensures !c.listening ==> (c'.mode == ListeningWakeWord <==> captureOk)
    ensures !c.listening ==> (c'.listening <==> captureOk)
    ensures !c.listening && !captureOk ==> c'.mode == Idle
    // only the mode, the listening flag and the detector change
    ensures c' == c.(mode := c'.mode, listening := c'.listening, det := c'.det)
  {
    if c.listening then c
    else
      var c1 := c.(det := ResetState());
      if captureOk then c1.(listening := true, mode := ListeningWakeWord) else StopListening(c1)
  }

  /** The synchronous part of `switchToAssist`: enter assist_active and
      send the run request; the rest happens when its run starts. */
  function SwitchToAssist(c: Card): (c': Card)
    ensures c'.mode == AssistActive
    ensures c'.conn.sent == c.conn.sent + [Protocol.RunPipeline(c.conn.nextId, RunRequest(c.pipelineId))]
    ensures c.conn.nextId in c'.conn.pending && c'.conn.lastId == Some(c.conn.nextId)
    ensures c'.det == c.det && c'.handlerId == c.handlerId
    ensures Protocol.Valid(c.conn) ==> Protocol.Valid(c'.conn)
    // only the mode and the connection change; the connection only gains
    // the request (ids, pending entry, send log)
    ensures c' == c.(mode := AssistActive, conn := c'.conn)
    ensures c'.conn.pending == c.conn.pending[c.conn.nextId := RunRequest(c.pipelineId)]
    ensures c'.conn == c.conn.(nextId := c'.conn.nextId, lastId := c'.conn.lastId,
                               pending := c'.conn.pending, sent := c'.conn.sent)
  {
    c.(mode := AssistActive, conn := Protocol.RunAssistPipeline(c.conn, RunRequest(c.pipelineId)).conn)
  }

  /** True when the messages sent from `c` to `c'` include audio. */
  predicate SentAudio(c: Card, c': Card)
    requires |c.conn.sent| <= |c'.conn.sent|
  {
    exists i | |c.conn.sent| <= i < |c'.conn.sent| :: c'.conn.sent[i].Binary?
  }

  /** The worklet message handler. Frames only arrive while listening (the
      worklet exists exactly then). In listening_ww the VAD and inference
      run and a detection switches to assist; in assist_active the frame
      is sent as audio when a handler id is set; when idle nothing happens.
      The detection's `switchToAssist` runs in the middle of the window
      loop of the card's `runInference`, but nothing the rest of the loop reads depends
      on it, so it is applied after the loop. */
  function OnFrame(e: Engines, toPcm16: AudioFrame -> seq<Int16>, c: Card, frame: AudioFrame): (c': Card)
    ensures c.conn.sent <= c'.conn.sent
    ensures !c.listening || c.mode == Idle ==> c' == c
    ensures c.mode != ListeningWakeWord ==> c'.det == c.det && c'.mode == c.mode
    ensures c.listening && c.mode == AssistActive && TruthyNum(c.handlerId) ==>
      c'.conn.sent == c.conn.sent + [Protocol.Binary(Protocol.AudioMessage(c.handlerId.value, toPcm16(frame)))]
    ensures SentAudio(c, c') <==> c.listening && c.mode == AssistActive && TruthyNum(c.handlerId)
    ensures c.listening && c.mode == ListeningWakeWord ==>
      (c'.mode == AssistActive <==> Detects(ListenStep(e, c.det, frame).events))
      && c'.det == ListenStep(e, c.det, frame).det
    ensures c.listening && c.mode == ListeningWakeWord && c'.mode == AssistActive ==>
      c'.conn.sent == c.conn.sent + [Protocol.RunPipeline(c.conn.nextId, RunRequest(c.pipelineId))]
    ensures c.listening && c.mode == ListeningWakeWord && c'.mode == ListeningWakeWord ==> c'.conn == c.conn
    ensures c.listening && c.mode == ListeningWakeWord && c.det.coolingDown ==>
      c'.mode == ListeningWakeWord && c'.det.coolingDown
    ensures c'.handlerId == c.handlerId && c'.listening == c.listening && c'.playingTts == c.playingTts
    ensures Inv(c) ==> Inv(c')
    // in assist_active a frame changes only the send log
    ensures c.listening && c.mode == AssistActive ==> c' == c.(conn := c.conn.(sent := c'.conn.sent))
    // in listening_ww a frame changes the detector, and a detection also
    // switches mode and issues exactly one request
    ensures c.listening && c.mode == ListeningWakeWord && c'.mode == ListeningWakeWord ==>
      c' == c.(det := c'.det)
    ensures c.listening && c.mode == ListeningWakeWord && c'.mode == AssistActive ==>
      && c' == c.(mode := AssistActive, det := c'.det, conn := c'.conn)
      && c'.conn.pending == c.conn.pending[c.conn.nextId := RunRequest(c.pipelineId)]
      && c'.conn == c.conn.(nextId := c'.conn.nextId, lastId := c'.conn.lastId,
                            pending := c'.conn.pending, sent := c'.conn.sent)
  {
    if !c.listening then c
    else match c.mode
      case Idle => c
      case ListeningWakeWord =>
        var r := ListenStep(e, c.det, frame);
        var c1 := c.(det := r.det);
        if Detects(r.events) then
          var c2 := SwitchToAssist(c1);
          assert !SentAudio(c, c2) by {
            assert |c2.conn.sent| == |c.conn.sent| + 1;
            assert c2.conn.sent[|c.conn.sent|].RunPipeline?;
          }
          c2
        else c1
      case AssistActive =>
        var c' := c.(conn := Protocol.SendAudioChunk(c.conn, c.handlerId, toPcm16(frame)));
        assert TruthyNum(c.handlerId) ==> c'.conn.sent[|c.conn.sent|].Binary?;
        c'
  }

  /** `handlePipelineEvent`. tts-end with a url starts playback; run-end
      clears the handler id at once and removes the listener of the latest
      request; error returns to listening with the pipeline state reset,
      keeping the handler id and listener; the other events only update
      the display. */
  function OnPipelineEvent(c: Card, ev: Protocol.PipelineEvent): (c': Card)
    ensures ev.kind == Protocol.TtsEnd ==> c' == c.(playingTts := c.playingTts || TruthyStr(ev.data.ttsUrl))
    ensures ev.kind == Protocol.RunEnd ==>
      c'.handlerId == None && c'.mode == c.mode && c'.det == c.det
      && (TruthyNum(c.conn.lastId) ==> c'.conn.listeners == c.conn.listeners - {c.conn.lastId.value})
      && (!TruthyNum(c.conn.lastId) ==> c'.conn == c.conn)
      && c' == c.(handlerId := c'.handlerId, conn := c'.conn)
      && c'.conn == c.conn.(listeners := c'.conn.listeners)
    ensures ev.kind == Protocol.Error ==> c' == ReturnToWakeWord(c)
    ensures ev.kind !in {Protocol.TtsEnd, Protocol.RunEnd, Protocol.Error} ==> c' == c
    ensures c'.conn.sent == c.conn.sent && c'.conn.pending == c.conn.pending
    ensures c'.listening == c.listening
    ensures Inv(c) ==> Inv(c')
  {
    match ev.kind
    case TtsEnd => if TruthyStr(ev.data.ttsUrl) then c.(playingTts := true) else c
    case RunEnd =>
      var conn := if TruthyNum(c.conn.lastId) then Protocol.Unsubscribe(c.conn, c.conn.lastId.value) else c.conn;
      c.(handlerId := None, conn := conn)
    case Error => ReturnToWakeWord(c)
    case _ => c
  }

  /** A websocket message. When a run starts, the pending `switchToAssist`
      resumes: it stores the handler id and, if that is set, installs the
      listener for the request. A rejected run is not handled by the card.
      Dispatched events go to `handlePipelineEvent`. */
  function OnMessage(c: Card, m: Protocol.Inbound): (c': Card)
    ensures c'.conn.nextId == c.conn.nextId && c'.conn.lastId == c.conn.lastId
    ensures c'.conn.pending == Protocol.HandleMessage(c.conn, m).conn.pending
    ensures c'.conn.sent == Protocol.HandleMessage(c.conn, m).conn.sent
    ensures c'.listening == c.listening
    ensures Inv(c) ==> Inv(c')
    // a started run stores its handler id, and the listener for the request
    // is installed exactly when that id is truthy
    ensures var h := Protocol.HandleMessage(c.conn, m);
      h.delivery.RunStarted? ==>
        && c'.handlerId == h.delivery.handlerId
        && c' == c.(handlerId := c'.handlerId, conn := c'.conn)
        && c'.conn == h.conn.(listeners := c.conn.listeners +
             (if TruthyNum(h.delivery.handlerId) then {h.delivery.requestId} else {}))
        && (Inv(c) ==> (h.delivery.requestId in c'.conn.listeners <==> TruthyNum(h.delivery.handlerId)))
    // a dispatched event goes to `handlePipelineEvent`
    ensures var h := Protocol.HandleMessage(c.conn, m);
      h.delivery.Dispatched? ==> c' == OnPipelineEvent(c.(conn := h.conn), h.delivery.event)
    // auth traffic, rejections and unmatched messages leave the card alone
    ensures var h := Protocol.HandleMessage(c.conn, m);
      !h.delivery.RunStarted? && !h.delivery.Dispatched? ==>
        c' == c.(conn := h.conn) && h.conn.listeners == c.conn.listeners
  {
    var h := Protocol.HandleMessage(c.conn, m);
    var c1 := c.(conn := h.conn);
    match h.delivery
    case RunStarted(id, handlerId) =>
      c1.(handlerId := handlerId, conn := if TruthyNum(handlerId) then Protocol.Subscribe(h.conn, id) else h.conn)
    case Dispatched(_, ev) => OnPipelineEvent(c1, ev)
    case _ => c1
  }

  /** Handling a websocket message never streams audio: at most the auth
      message is appended to what was sent. */
  lemma MessagesSendNoAudio(c: Card, m: Protocol.Inbound)
    ensures c.conn.sent <= OnMessage(c, m).conn.sent
    ensures !SentAudio(c, OnMessage(c, m))
  {
  }

  /** One step of the card. */
  function Step(e: Engines, toPcm16: AudioFrame -> seq<Int16>, c: Card, s: Stimulus): (c': Card)
    ensures Inv(c) ==> Inv(c')
    ensures c.conn.sent <= c'.conn.sent
    ensures s.StopPressed? ==> c'.mode == Idle && !c'.listening
    ensures s.CooldownElapsed? ==> c' == c.(det := c.det.(coolingDown := false))
    // entering listening_ww always comes with a full reset of the pipeline state
    ensures c.mode != ListeningWakeWord && c'.mode == ListeningWakeWord ==> c'.det == ResetState()
    // assist_active is only entered from listening_ww by a detection, which requests a run
    ensures c.mode != AssistActive && c'.mode == AssistActive ==>
      s.FrameReady? && c.mode == ListeningWakeWord && c.listening
      && c'.conn.sent == c.conn.sent + [Protocol.RunPipeline(c.conn.nextId, RunRequest(c.pipelineId))]
    // audio goes out only from assist_active with a handler id set
    ensures SentAudio(c, c') ==> s.FrameReady? && c.mode == AssistActive && TruthyNum(c.handlerId)
    // the detector only changes while listening for the wake word, or by a reset or cooldown expiry
    ensures c'.det != c.det ==>
      (s.FrameReady? && c.mode == ListeningWakeWord) || c'.det == ResetState() || s.CooldownElapsed?
  {
    match s
    case StartPressed(ok) => StartListening(c, ok)
    case StopPressed => StopListening(c)
    case FrameReady(frame) => OnFrame(e, toPcm16, c, frame)
    case MessageIn(m) =>
      MessagesSendNoAudio(c, m);
      OnMessage(c, m)
    case CooldownElapsed => c.(det := c.det.(coolingDown := false))
    case GraceElapsed => if c.mode == AssistActive && !c.playingTts then ReturnToWakeWord(c) else c
    case PlaybackEnded => ReturnToWakeWord(c.(playingTts := false))
    case SocketClosed => c.(conn := Protocol.Close(c.conn))
  }

  /** The timers after a run: the grace timer started by run-end returns
      to listening_ww only from assist_active with no reply playing, and
      otherwise does nothing; the end of playback always clears the flag
      and returns to listening_ww. Neither touches the handler id or the
      connection. */
  lemma GraceAndPlaybackEnd(e: Engines, toPcm16: AudioFrame -> seq<Int16>, c: Card)
    ensures var c' := Step(e, toPcm16, c, GraceElapsed);
      && (c.mode == AssistActive && !c.playingTts ==> c' == c.(mode := ListeningWakeWord, det := ResetState()))
      && (c.mode != AssistActive || c.playingTts ==> c' == c)
    ensures Step(e, toPcm16, c, PlaybackEnded) ==
      c.(playingTts := false, mode := ListeningWakeWord, det := ResetState())
  {
  }

  /** Liveness of detection: listening for the wake word with no cooldown,
      a frame after which speech is active and one of whose window scores
      exceeds 0.5 switches the card to assist_active and requests a run. */
  lemma DetectionEntersAssist(e: Engines, toPcm16: AudioFrame -> seq<Int16>, c: Card, frame: AudioFrame)
    requires c.listening && c.mode == ListeningWakeWord && !c.det.coolingDown
    requires ListenStep(e, c.det, frame).det.speech.active
    requires AnyDetect(ListenStep(e, c.det, frame).scores)
    ensures var c' := Step(e, toPcm16, c, FrameReady(frame));
      && c'.mode == AssistActive
      && c'.det.coolingDown
      && c'.conn.sent == c.conn.sent + [Protocol.RunPipeline(c.conn.nextId, RunRequest(c.pipelineId))]
  {
  }

  /** A spoken reply holds assist_active past the grace timer: after
      `tts-end` with a url and then `run-end`, the grace timer leaves the
      card in assist_active, and only the end of playback returns it to
      listening_ww. */
  lemma ReplyPlaybackHoldsAssist(e: Engines, toPcm16: AudioFrame -> seq<Int16>, c: Card, id: int,
                                 handlerId: Option<int>, url: string, data: Protocol.EventData)
    requires Inv(c) && c.mode == AssistActive && id in c.conn.listeners && url != ""
    ensures var c1 := Step(e, toPcm16, c, MessageIn(Protocol.Event(id,
              Protocol.PipelineEvent(Protocol.TtsEnd, Protocol.EventData(handlerId, Some(url))))));
      var c2 := Step(e, toPcm16, c1, MessageIn(Protocol.Event(id, Protocol.PipelineEvent(Protocol.RunEnd, data))));
      var c3 := Step(e, toPcm16, c2, GraceElapsed);
      var c4 := Step(e, toPcm16, c3, PlaybackEnded);
      && c3.mode == AssistActive && c3.playingTts
      && c4.mode == ListeningWakeWord && !c4.playingTts
  {
    var m1 := Protocol.Event(id, Protocol.PipelineEvent(Protocol.TtsEnd, Protocol.EventData(handlerId, Some(url))));
    var m2 := Protocol.Event(id, Protocol.PipelineEvent(Protocol.RunEnd, data));
    var c1 := Step(e, toPcm16, c, MessageIn(m1));
    assert Protocol.HandleMessage(c.conn, m1).delivery == Protocol.Dispatched(id, m1.event);
    assert c1.mode == AssistActive && c1.playingTts && id in c1.conn.listeners;
    var c2 := Step(e, toPcm16, c1, MessageIn(m2));
    assert Protocol.HandleMessage(c1.conn, m2).delivery == Protocol.Dispatched(id, m2.event);
    assert c2.mode == AssistActive && c2.playingTts;
  }

  /** An `error` event for the request being listened to returns the card
      to listening_ww with all pipeline state reset. The handler id and the
      listener are kept. */
  lemma ErrorEventReturnsToListening(e: Engines, toPcm16: AudioFrame -> seq<Int16>, c: Card, id: int, data: Protocol.EventData)
    requires id in c.conn.listeners
    ensures var c' := Step(e, toPcm16, c, MessageIn(Protocol.Event(id, Protocol.PipelineEvent(Protocol.Error, data))));
      && c'.mode == ListeningWakeWord
      && c'.det == ResetState()
      && !c'.det.coolingDown && c'.det.mel == []
      && c'.handlerId == c.handlerId
      && c'.conn.listeners == c.conn.listeners
  {
  }

  /** A `run-end` event for the request being listened to clears the
      handler id, removes the listener of the latest request, and from
      then on frames send no audio. */
  lemma RunEndStopsAudio(e: Engines, toPcm16: AudioFrame -> seq<Int16>, c: Card, id: int, data: Protocol.EventData, frame: AudioFrame)
    requires Inv(c) && id in c.conn.listeners
    ensures var c' := Step(e, toPcm16, c, MessageIn(Protocol.Event(id, Protocol.PipelineEvent(Protocol.RunEnd, data))));
      && c'.handlerId == None
      && c'.mode == c.mode
      && c.conn.lastId.Some? && c.conn.lastId.value !in c'.conn.listeners
      && !SentAudio(c', Step(e, toPcm16, c', FrameReady(frame)))
  {
  }

  /** A `run-start` event for the pending request stores its handler id
      and, when that is set, installs the listener; while assist_active,
      the next frame is then sent tagged with that handler id. */
  lemma RunStartArmsStreaming(e: Engines, toPcm16: AudioFrame -> seq<Int16>, c: Card, id: int, handlerId: int, url: Option<string>, frame: AudioFrame)
    requires Inv(c) && id in c.conn.pending && handlerId != 0
    ensures var data := Protocol.EventData(Some(handlerId), url);
      var c' := Step(e, toPcm16, c, MessageIn(Protocol.Event(id, Protocol.PipelineEvent(Protocol.RunStart, data))));
      && c'.handlerId == Some(handlerId)
      && id in c'.conn.listeners && id !in c'.conn.pending
      && c'.mode == c.mode
      && (c'.listening && c'.mode == AssistActive ==>
            Step(e, toPcm16, c', FrameReady(frame)).conn.sent
              == c'.conn.sent + [Protocol.Binary(Protocol.AudioMessage(handlerId, toPcm16(frame)))])
  {
  }

  /** A rejected run (a `result` with success=false) is dropped from the
      pending requests, but the card stays in assist_active. */
  lemma RejectedRunLeavesAssist(e: Engines, toPcm16: AudioFrame -> seq<Int16>, c: Card, id: int, error: string)
    requires Inv(c) && c.mode == AssistActive && id in c.conn.pending
    ensures var c' := Step(e, toPcm16, c, MessageIn(Protocol.Result(id, false, error)));
      && c'.mode == AssistActive
      && id !in c'.conn.pending
      && c'.handlerId == c.handlerId
  {
  }

  /** Feeding frames one at a time. */
  function Frames(e: Engines, toPcm16: AudioFrame -> seq<Int16>, c: Card, frames: seq<AudioFrame>): Card
    decreases |frames|
  {
    if |frames| == 0 then c else Frames(e, toPcm16, Step(e, toPcm16, c, FrameReady(frames[0])), frames[1..])
  }

  /** While the cooldown is on, no run of frames can trigger the assistant:
      the card stays in listening_ww, sends nothing and stays cooling down,
      until the cooldown timer or a reset clears the flag. */
  lemma {:induction false} CooldownBlocksDetection(e: Engines, toPcm16: AudioFrame -> seq<Int16>, c: Card, frames: seq<AudioFrame>)
    requires c.mode == ListeningWakeWord && c.det.coolingDown
    ensures var c' := Frames(e, toPcm16, c, frames);
      c'.mode == ListeningWakeWord && c'.det.coolingDown && c'.conn == c.conn
    decreases |frames|
  {
    if |frames| > 0 {
      CooldownBlocksDetection(e, toPcm16, Step(e, toPcm16, c, FrameReady(frames[0])), frames[1..]);
    }
  }

  /** Reply playback that ends after the card was stopped still returns
      it to listening_ww, with the microphone off. */
  lemma PlaybackEndAfterStop(e: Engines, toPcm16: AudioFrame -> seq<Int16>, c: Card)
    ensures var c' := Step(e, toPcm16, Step(e, toPcm16, c, StopPressed), PlaybackEnded);
      c'.mode == ListeningWakeWord && !c'.listening
  {
  }
}

=== FILE: speech_activity.dfy ===
/** Hangover smoothing of the raw voice-activity flag: a firing frame
    re-arms a counter, silent frames count it down, and speech is active
    while the counter is above zero. */
module SpeechActivity {

  const HangoverFrames: nat := 12

  /** `vadHangoverCounter` and `isSpeechActive`. */
  datatype Tracker = Tracker(counter: nat, active: bool)

  /** The state `resetState` leaves behind. */
  const Initial := Tracker(0, false)

  predicate Valid(t: Tracker) {
    t.counter <= HangoverFrames && t.active == (t.counter > 0)
  }

  /** The per-frame update done in the worklet message handler. */
  function Step(t: Tracker, fired: bool): (t': Tracker)
    ensures t'.active <==> t'.counter > 0
    ensures Valid(t) ==> Valid(t')
    ensures fired ==> t'.counter == HangoverFrames && t'.active
    ensures !fired && t.counter > 0 ==> t'.counter + 1 == t.counter
    ensures !fired && t.counter == 0 ==> t' == Initial
  {
    var c := if fired then HangoverFrames else if t.counter > 0 then t.counter - 1 else t.counter;
    Tracker(c, c > 0)
  }

  /** The tracker after a sequence of frames, oldest first. */
  function Run(t: Tracker, fired: seq<bool>): Tracker
    decreases |fired|
  {
    if |fired| == 0 then t else Step(Run(t, fired[..|fired| - 1]), fired[|fired| - 1])
  }

  function Clip(x: int): nat {
    if x > 0 then x else 0
  }

  predicate FiredSome(fired: seq<bool>) {
    exists j | 0 <= j < |fired| :: fired[j]
  }

  /** Index of the most recent firing frame. */
  function LastFire(fired: seq<bool>): (j: nat)
    requires FiredSome(fired)
    ensures j < |fired| && fired[j]
    ensures forall k | j < k < |fired| :: !fired[k]
    decreases |fired|
  {
    if fired[|fired| - 1] then |fired| - 1
    else
      assert FiredSome(fired[..|fired| - 1]) by {
        var j :| 0 <= j < |fired| && fired[j];
        assert fired[..|fired| - 1][j] == fired[j];
      }
      LastFire(fired[..|fired| - 1])
  }

  /** The counter is re-armed by the latest firing frame and has counted
      down once per frame since; with no firing it counts down from its
      initial value. */
  lemma {:induction false} CounterAfter(t: Tracker, fired: seq<bool>)
    ensures FiredSome(fired) ==>
      Run(t, fired).counter == Clip(HangoverFrames - (|fired| - 1 - LastFire(fired)))
    ensures !FiredSome(fired) ==> Run(t, fired).counter == Clip(t.counter - |fired|)
    decreases |fired|
  {
    if |fired| > 0 {
      var init := fired[..|fired| - 1];
      CounterAfter(t, init);
      if !fired[|fired| - 1] {
        if FiredSome(fired) {
          var j :| 0 <= j < |fired| && fired[j];
          assert init[j] == fired[j];
          assert LastFire(fired) == LastFire(init);
        }
      }
    }
  }

  /** Speech is active exactly when the detector fired in one of the last
      HangoverFrames frames, or when no frame fired and the initial
      hangover has not yet run out. */
  lemma ActiveIffRecentFire(t: Tracker, fired: seq<bool>)
    requires Valid(t)
    ensures Run(t, fired).active <==>
      (exists j | 0 <= j < |fired| :: |fired| - HangoverFrames <= j && fired[j])
      || (!FiredSome(fired) && t.counter > |fired|)
  {
    CounterAfter(t, fired);
    if |fired| > 0 {
      assert Valid(Run(t, fired));
    }
    if FiredSome(fired) {
      var l := LastFire(fired);
      if exists j | 0 <= j < |fired| :: |fired| - HangoverFrames <= j && fired[j] {
        var j :| 0 <= j < |fired| && |fired| - HangoverFrames <= j && fired[j];
        assert j <= l;
      }
    }
  }

  function Silence(n: nat): seq<bool> {
    seq(n, _ => false)
  }

  /** One firing frame followed by n silent ones keeps speech active for
      exactly HangoverFrames frames in all (the firing one included). */
  lemma SingleFireHangover(t: Tracker, n: nat)
    requires Valid(t)
    ensures Run(t, [true] + Silence(n)).active <==> n < HangoverFrames
  {
    var fired := [true] + Silence(n);
    assert fired[0];
    assert LastFire(fired) == 0;
    CounterAfter(t, fired);
    assert Valid(Run(t, fired));
  }
}

=== FILE: wake_word.dfy ===
/** The wake-word detector: voice-activity step, mel-frame queue, sliding
    76-frame windows with stride 8, the 16-slot embedding ring and the
    dual-threshold decision with cooldown. The neural sessions are
    uninterpreted functions supplied in an `Engines` record. */
module WakeWord {
  import opened Base
  import SpeechActivity

  const MelWidth: nat := 32
  const MelPerFrame: nat := 5
  const WindowSize: nat := 76
  const WindowStride: nat := 8
  const RingSize: nat := 16
  const EmbeddingWidth: nat := 96
  /** Two (2,1,64) tensors: hidden and cell state. */
  const VadStateSize: nat := 128
  const DetectThreshold: real := 0.5
  const NearMissThreshold: real := 0.3
  const VadThreshold: real := 0.5

  type AudioFrame = seq<real>
  type MelFrame = seq<real>
  type Embedding = seq<real>

  datatype VadState = VadState(h: seq<real>, c: seq<real>)

  /** What the VAD session returns: speech probability and the next state. */
  datatype VadOutput = VadOutput(probability: real, hn: seq<real>, cn: seq<real>)

  /** The inference sessions. `vad` yields None when the session call fails;
      `melspec` yields the spectrogram output already rescaled. */
  datatype Engines = Engines(
    vad: (AudioFrame, VadState) -> Option<VadOutput>,
    melspec: AudioFrame -> seq<real>,
    embed: seq<MelFrame> -> Embedding,
    classify: seq<Embedding> -> real)

  /** The card's pipeline fields: `mel_buffer`, `embedding_buffer`,
      `vadState`, the hangover tracker and `isDetectionCoolingDown`. */
  datatype Detector = Detector(
    mel: seq<MelFrame>,
    ring: seq<Embedding>,
    vad: VadState,
    speech: SpeechActivity.Tracker,
    coolingDown: bool)

  datatype WakeEvent = Detected(score: real) | NearMiss(score: real)

  predicate Valid(d: Detector) {
    && |d.mel| < WindowSize
    && |d.ring| == RingSize
    && SpeechActivity.Valid(d.speech)
  }

  function Zeros(n: nat): seq<real> {
    seq(n, _ => 0.0)
  }

  /** The fields as the constructor leaves them, before any reset. */
  function Unstarted(): Detector {
    Detector([], [], VadState([], []), SpeechActivity.Initial, false)
  }

  /** `resetState`: empty mel queue, sixteen zero embeddings, zeroed VAD
      state, no speech, no cooldown. */
  function ResetState(): (d: Detector)
    ensures Valid(d)
    ensures d.mel == [] && !d.coolingDown && !d.speech.active && d.speech.counter == 0
    ensures |d.ring| == RingSize
    ensures forall i | 0 <= i < |d.ring| :: d.ring[i] == Zeros(EmbeddingWidth)
    ensures d.vad.h == Zeros(VadStateSize) && d.vad.c == Zeros(VadStateSize)
  {
    Detector([], seq(RingSize, _ => Zeros(EmbeddingWidth)),
             VadState(Zeros(VadStateSize), Zeros(VadStateSize)),
             SpeechActivity.Initial, false)
  }

  /** `runVad`: a failed session call reports no speech and keeps the
      state; otherwise the state advances and speech is reported when the
      probability exceeds the threshold. */
  function RunVad(e: Engines, frame: AudioFrame, s: VadState): (r: (bool, VadState))
    ensures e.vad(frame, s).None? ==> r == (false, s)
    ensures e.vad(frame, s).Some? ==>
      var o := e.vad(frame, s).value;
      r.0 == (o.probability > VadThreshold) && r.1 == VadState(o.hn, o.cn)
  {
    match e.vad(frame, s)
    case None => (false, s)
    case Some(o) => (o.probability > VadThreshold, VadState(o.hn, o.cn))
  }

  /** An index clamped to the length of `data`. */
  function Clamp(data: seq<real>, x: nat): nat {
    if x <= |data| then x else |data|
  }

  /** `Float32Array.subarray(lo, hi)`: both ends clamp to the length. */
  function Subarray(data: seq<real>, lo: nat, hi: nat): seq<real>
    requires lo <= hi
  {
    data[Clamp(data, lo)..Clamp(data, hi)]
  }

  /** The five mel frames cut from one spectrogram output. */
  function SplitMel(data: seq<real>): (m: seq<MelFrame>)
    ensures |m| == MelPerFrame
    ensures |data| == MelPerFrame * MelWidth ==> forall j | 0 <= j < MelPerFrame :: |m[j]| == MelWidth
  {
    seq(MelPerFrame, j requires 0 <= j < MelPerFrame => Subarray(data, j * MelWidth, (j + 1) * MelWidth))
  }

  lemma {:induction false} SplitMelSuffix(data: seq<real>, j: nat)
    requires j <= MelPerFrame
    ensures Flatten(SplitMel(data)[j..]) ==
      data[Clamp(data, j * MelWidth)..Clamp(data, MelPerFrame * MelWidth)]
    decreases MelPerFrame - j
  {
    var m := SplitMel(data);
    if j < MelPerFrame {
      SplitMelSuffix(data, j + 1);
      var lo := j * MelWidth;
      assert (j + 1) * MelWidth == lo + MelWidth;
      assert lo + MelWidth <= MelPerFrame * MelWidth;
      var a, b, c := Clamp(data, lo), Clamp(data, lo + MelWidth), Clamp(data, MelPerFrame * MelWidth);
      assert m[j] == data[a..b];
      assert m[j..][1..] == m[j + 1..];
      assert data[a..c] == data[a..b] + data[b..c];
    }
  }

  /** The five mel frames, put back together, are the first 160 values of
      the spectrogram output: nothing is reordered or duplicated. */
  lemma SplitMelConcat(data: seq<real>)
    ensures Flatten(SplitMel(data)) == data[..Clamp(data, MelPerFrame * MelWidth)]
  {
    SplitMelSuffix(data, 0);
    assert SplitMel(data)[0..] == SplitMel(data);
  }

  predicate Detects(events: seq<WakeEvent>) {
    exists i | 0 <= i < |events| :: events[i].Detected?
  }

  /** The decision for one classifier score: detection above 0.5, near miss
      above 0.3, both only while speech is active and no cooldown runs. A
      detection starts the cooldown; a near miss changes nothing. */
  function Decide(score: real, speech: bool, cooling: bool): (r: (Option<WakeEvent>, bool))
    ensures r.0 == Some(Detected(score)) <==> score > DetectThreshold && speech && !cooling
    ensures r.0 == Some(NearMiss(score)) <==>
      NearMissThreshold < score <= DetectThreshold && speech && !cooling
    ensures r.0.None? <==> score <= NearMissThreshold || !speech || cooling
    ensures r.1 <==> cooling || r.0 == Some(Detected(score))
  {
    if score > DetectThreshold && speech && !cooling then (Some(Detected(score)), true)
    else if score > NearMissThreshold && speech && !cooling then (Some(NearMiss(score)), cooling)
    else (None, cooling)
  }

  function EventsOf(ev: Option<WakeEvent>): seq<WakeEvent> {
    if ev.Some? then [ev.value] else []
  }

  /** Some score exceeds the detection threshold. */
  predicate AnyDetect(scores: seq<real>) {
    exists k | 0 <= k < |scores| :: scores[k] > DetectThreshold
  }

  lemma AnyDetectCons(score: real, scores: seq<real>)
    ensures AnyDetect([score] + scores) <==> score > DetectThreshold || AnyDetect(scores)
  {
    var all := [score] + scores;
    assert all[0] == score;
    if AnyDetect(scores) {
      var k :| 0 <= k < |scores| && scores[k] > DetectThreshold;
      assert all[k + 1] == scores[k];
    }
    if AnyDetect(all) {
      var k :| 0 <= k < |all| && all[k] > DetectThreshold;
      if k > 0 {
        assert scores[k - 1] == all[k];
      }
    }
  }

  lemma DetectsCons(e: WakeEvent, events: seq<WakeEvent>)
    ensures Detects([e] + events) <==> e.Detected? || Detects(events)
  {
    var all := [e] + events;
    assert all[0] == e;
    if Detects(events) {
      var i :| 0 <= i < |events| && events[i].Detected?;
      assert all[i + 1] == events[i];
    }
    if Detects(all) {
      var i :| 0 <= i < |all| && all[i].Detected?;
      if i > 0 {
        assert events[i - 1] == all[i];
      }
    }
  }

  /** Reference for the events of a run of scores that starts with no
      cooldown and active speech: a near miss for each score in (0.3, 0.5]
      up to the first score above 0.5, which is reported and ends the run. */
  function Gated(scores: seq<real>): (ev: seq<WakeEvent>)
    ensures |ev| <= |scores|
    ensures forall i | 0 <= i < |ev| :: ev[i].Detected? ==> i == |ev| - 1
    ensures forall i | 0 <= i < |ev| :: ev[i].Detected? ==> ev[i].score > DetectThreshold
    ensures forall i | 0 <= i < |ev| ::
      ev[i].NearMiss? ==> NearMissThreshold < ev[i].score <= DetectThreshold
    decreases |scores|
  {
    if |scores| == 0 then []
    else if scores[0] > DetectThreshold then [Detected(scores[0])]
    else
      var rest := Gated(scores[1..]);
      if scores[0] > NearMissThreshold then
        var ev := [NearMiss(scores[0])] + rest;
        assert forall i | 0 <= i < |rest| :: ev[i + 1] == rest[i];
        ev
      else rest
  }

  /** The reference reports a detection exactly when some score exceeds
      the detection threshold. */
  lemma {:induction false} GatedDetects(scores: seq<real>)
    ensures Detects(Gated(scores)) <==> AnyDetect(scores)
    decreases |scores|
  {
    if |scores| > 0 {
      AnyDetectCons(scores[0], scores[1..]);
      assert [scores[0]] + scores[1..] == scores;
      if scores[0] > DetectThreshold {
        DetectsCons(Detected(scores[0]), []);
      } else {
        GatedDetects(scores[1..]);
        if scores[0] > NearMissThreshold {
          DetectsCons(NearMiss(scores[0]), Gated(scores[1..]));
        }
      }
    }
  }

  /** Result of the window loop of `runInference`. */
  datatype Windowed = Windowed(
    mel: seq<MelFrame>,
    ring: seq<Embedding>,
    coolingDown: bool,
    embeddings: seq<Embedding>,
    scores: seq<real>,
    events: seq<WakeEvent>)

  /** `Array.shift` on the ring: removes the oldest entry, if any. */
  function Shift(ring: seq<Embedding>): seq<Embedding> {
    if |ring| == 0 then [] else ring[1..]
  }

  /** The `while (mel_buffer.length >= 76)` loop: embed the first 76 mel
      frames, shift the ring and push the embedding, classify the ring,
      decide, then drop the first 8 mel frames. The loop consumes windows
      exactly until fewer than 76 mel frames remain. */
  function Windows(e: Engines, mel: seq<MelFrame>, ring: seq<Embedding>, speech: bool, cooling: bool): (w: Windowed)
    decreases |mel|
    ensures |w.scores| == |w.embeddings|
    ensures |w.mel| < WindowSize
    ensures WindowStride * |w.scores| <= |mel| && w.mel == mel[WindowStride * |w.scores|..]
    ensures |w.scores| > 0 ==> |mel| - WindowStride * (|w.scores| - 1) >= WindowSize
  {
    if |mel| < WindowSize then Windowed(mel, ring, cooling, [], [], [])
    else
      var emb := e.embed(mel[..WindowSize]);
      var ring1 := Shift(ring) + [emb];
      var score := e.classify(ring1);
      var decision := Decide(score, speech, cooling);
      var rest := Windows(e, mel[WindowStride..], ring1, speech, decision.1);
      Windowed(rest.mel, rest.ring, rest.coolingDown,
               [emb] + rest.embeddings, [score] + rest.scores, EventsOf(decision.0) + rest.events)
  }

  /** One turn of the window loop, for the proofs below. */
  lemma WindowsUnfold(e: Engines, mel: seq<MelFrame>, ring: seq<Embedding>, speech: bool, cooling: bool)
      returns (emb: Embedding, ring1: seq<Embedding>, score: real, decision: (Option<WakeEvent>, bool), rest: Windowed)
    requires |mel| >= WindowSize
    ensures emb == e.embed(mel[..WindowSize])
    ensures ring1 == Shift(ring) + [emb]
    ensures score == e.classify(ring1)
    ensures decision == Decide(score, speech, cooling)
    ensures rest == Windows(e, mel[WindowStride..], ring1, speech, decision.1)
    ensures Windows(e, mel, ring, speech, cooling) ==
      Windowed(rest.mel, rest.ring, rest.coolingDown,
               [emb] + rest.embeddings, [score] + rest.scores, EventsOf(decision.0) + rest.events)
  {
    emb := e.embed(mel[..WindowSize]);
    ring1 := Shift(ring) + [emb];
    score := e.classify(ring1);
    decision := Decide(score, speech, cooling);
    rest := Windows(e, mel[WindowStride..], ring1, speech, decision.1);
  }

  /** `embs[k]` is the embedding of the k-th window of `mel`: mel frames
      8k up to 8k+76. */
  predicate EmbedsWindows(e: Engines, mel: seq<MelFrame>, embs: seq<Embedding>) {
    forall k | 0 <= k < |embs| ::
      WindowStride * k + WindowSize <= |mel|
      && embs[k] == e.embed(mel[WindowStride * k .. WindowStride * k + WindowSize])
  }

  lemma EmbedsWindowsCons(e: Engines, mel: seq<MelFrame>, emb: Embedding, embs: seq<Embedding>)
    requires |mel| >= WindowSize
    requires emb == e.embed(mel[..WindowSize])
    requires EmbedsWindows(e, mel[WindowStride..], embs)
    ensures EmbedsWindows(e, mel, [emb] + embs)
  {
    var all := [emb] + embs;
    forall k | 0 <= k < |all|
      ensures WindowStride * k + WindowSize <= |mel|
      ensures all[k] == e.embed(mel[WindowStride * k .. WindowStride * k + WindowSize])
    {
      if k == 0 {
        assert mel[0..WindowSize] == mel[..WindowSize];
      } else {
        var j := k - 1;
        assert all[k] == embs[j];
        assert WindowStride * j + WindowSize <= |mel[WindowStride..]|;
        assert mel[WindowStride..][WindowStride * j .. WindowStride * j + WindowSize]
            == mel[WindowStride * k .. WindowStride * k + WindowSize];
      }
    }
  }

  /** The embeddings the loop computes are those of the successive
      sliding windows of the queue. */
  lemma {:induction false} WindowsEmbedSlidingWindows(e: Engines, mel: seq<MelFrame>, ring: seq<Embedding>, speech: bool, cooling: bool)
    ensures EmbedsWindows(e, mel, Windows(e, mel, ring, speech, cooling).embeddings)
    decreases |mel|
  {
    if |mel| >= WindowSize {
      var emb, ring1, score, decision, rest := WindowsUnfold(e, mel, ring, speech, cooling);
      WindowsEmbedSlidingWindows(e, mel[WindowStride..], ring1, speech, decision.1);
      EmbedsWindowsCons(e, mel, emb, rest.embeddings);
    }
  }

  /** `scores[k]` classifies the ring as it stands after k+1 pushes of
      `embs` onto `ring`: the window of |ring| entries ending at the push. */
  predicate ClassifiesRing(e: Engines, ring: seq<Embedding>, embs: seq<Embedding>, scores: seq<real>)
    requires |scores| <= |embs|
  {
    forall k | 0 <= k < |scores| ::
      scores[k] == e.classify((ring + embs)[k + 1 .. k + 1 + |ring|])
  }

  lemma ClassifiesRingCons(e: Engines, ring: seq<Embedding>, emb: Embedding, embs: seq<Embedding>, score: real, scores: seq<real>)
    requires |ring| > 0 && |scores| <= |embs|
    requires score == e.classify(ring[1..] + [emb])
    requires ClassifiesRing(e, ring[1..] + [emb], embs, scores)
    ensures ClassifiesRing(e, ring, [emb] + embs, [score] + scores)
  {
    var ring1 := ring[1..] + [emb];
    var all := ring + ([emb] + embs);
    assert ring1 + embs == all[1..];
    forall k | 0 <= k < |scores| + 1
      ensures ([score] + scores)[k] == e.classify(all[k + 1 .. k + 1 + |ring|])
    {
      if k == 0 {
        assert ring1 == all[1 .. 1 + |ring|];
      } else {
        assert (ring1 + embs)[k .. k + |ring|] == all[k + 1 .. k + 1 + |ring|];
      }
    }
  }

  /** The ring in the window loop is a FIFO of fixed length: it ends as
      the last entries of the old ring followed by the new embeddings. */
  lemma {:induction false} WindowsRingFifo(e: Engines, mel: seq<MelFrame>, ring: seq<Embedding>, speech: bool, cooling: bool)
    requires |ring| > 0
    ensures var w := Windows(e, mel, ring, speech, cooling);
      && w.ring == (ring + w.embeddings)[|w.embeddings|..]
      && |w.ring| == |ring|
    decreases |mel|
  {
    if |mel| >= WindowSize {
      var emb, ring1, score, decision, rest := WindowsUnfold(e, mel, ring, speech, cooling);
      WindowsRingFifo(e, mel[WindowStride..], ring1, speech, decision.1);
      PushSuffix(ring, emb, rest.embeddings);
    }
  }

  /** Pushing `emb` onto the shifted ring and then the rest of the
      embeddings is dropping one more entry from the whole stream. */
  lemma PushSuffix(ring: seq<Embedding>, emb: Embedding, embs: seq<Embedding>)
    requires |ring| > 0
    ensures (Shift(ring) + [emb] + embs)[|embs|..] == (ring + ([emb] + embs))[|embs| + 1..]
  {
  }

  /** Each score of the window loop classifies the ring as it stood right
      after that window's embedding was pushed. */
  lemma {:induction false} WindowsClassifyRing(e: Engines, mel: seq<MelFrame>, ring: seq<Embedding>, speech: bool, cooling: bool)
    requires |ring| > 0
    ensures var w := Windows(e, mel, ring, speech, cooling);
      ClassifiesRing(e, ring, w.embeddings, w.scores)
    decreases |mel|
  {
    if |mel| >= WindowSize {
      var emb, ring1, score, decision, rest := WindowsUnfold(e, mel, ring, speech, cooling);
      WindowsClassifyRing(e, mel[WindowStride..], ring1, speech, decision.1);
      ClassifiesRingCons(e, ring, emb, rest.embeddings, score, rest.scores);
    }
  }

  /** With no speech or an active cooldown the window loop reports
      nothing and keeps the cooldown flag. */
  lemma {:induction false} WindowsSilent(e: Engines, mel: seq<MelFrame>, ring: seq<Embedding>, speech: bool, cooling: bool)
    requires !speech || cooling
    ensures var w := Windows(e, mel, ring, speech, cooling);
      w.events == [] && w.coolingDown == cooling
    decreases |mel|
  {
    if |mel| >= WindowSize {
      var emb, ring1, score, decision, rest := WindowsUnfold(e, mel, ring, speech, cooling);
      WindowsSilent(e, mel[WindowStride..], ring1, speech, decision.1);
    }
  }

  /** With speech and no cooldown the events of the window loop are the
      reference `Gated` of its scores, and the cooldown is set exactly when
      some score exceeded the detection threshold. */
  lemma {:induction false} WindowsGating(e: Engines, mel: seq<MelFrame>, ring: seq<Embedding>, speech: bool, cooling: bool)
    requires speech && !cooling
    ensures var w := Windows(e, mel, ring, speech, cooling);
      w.events == Gated(w.scores) && (w.coolingDown <==> AnyDetect(w.scores))
    decreases |mel|
  {
    if |mel| >= WindowSize {
      var emb, ring1, score, decision, rest := WindowsUnfold(e, mel, ring, speech, cooling);
      AnyDetectCons(score, rest.scores);
      if decision.1 {
        WindowsSilent(e, mel[WindowStride..], ring1, speech, decision.1);
      } else {
        WindowsGating(e, mel[WindowStride..], ring1, speech, decision.1);
      }
      assert ([score] + rest.scores)[1..] == rest.scores;
    }
  }

  /** Both cases of the window loop's gating together. */
  lemma {:induction false} WindowsGate(e: Engines, mel: seq<MelFrame>, ring: seq<Embedding>, speech: bool, cooling: bool)
    ensures var w := Windows(e, mel, ring, speech, cooling);
      !speech || cooling ==> w.events == [] && w.coolingDown == cooling
    ensures var w := Windows(e, mel, ring, speech, cooling);
      speech && !cooling ==> w.events == Gated(w.scores) && (w.coolingDown <==> AnyDetect(w.scores))
  {
    if !speech || cooling {
      WindowsSilent(e, mel, ring, speech, cooling);
    } else {
      WindowsGating(e, mel, ring, speech, cooling);
    }
  }

  /** Result of inference: the detector afterwards, the number of windows
      classified, their embeddings and scores, and the events reported. */
  datatype Inference = Inference(
    det: Detector,
    windows: nat,
    embeddings: seq<Embedding>,
    scores: seq<real>,
    events: seq<WakeEvent>)

  /** The mel queue after a frame's five mel frames are appended. */
  function QueuedMel(e: Engines, d: Detector, frame: AudioFrame): seq<MelFrame> {
    d.mel + SplitMel(e.melspec(frame))
  }

  /** `runInference`: append the frame's five mel frames, then run the
      window loop. The k-th window embeds queue rows 8k to 8k+76, and the
      queue left is the appended queue minus 8 rows per window, shorter
      than one window. The ring is a FIFO of fixed length and each score
      classifies it right after its push. Without speech or during the
      cooldown nothing is reported; otherwise the events are the reference
      `Gated` of the scores, so a score above 0.5 is reported as a
      detection, which is the last event and starts the cooldown. */
  function RunInference(e: Engines, d: Detector, frame: AudioFrame): (r: Inference)
    ensures |r.scores| == r.windows && |r.embeddings| == r.windows
    ensures |r.det.mel| + WindowStride * r.windows == |d.mel| + MelPerFrame
    ensures |r.det.mel| < WindowSize
    ensures WindowStride * r.windows <= |QueuedMel(e, d, frame)|
      && r.det.mel == QueuedMel(e, d, frame)[WindowStride * r.windows..]
    ensures EmbedsWindows(e, QueuedMel(e, d, frame), r.embeddings)
    ensures r.det.vad == d.vad && r.det.speech == d.speech
    ensures |d.ring| > 0 ==>
      && |r.det.ring| == |d.ring|
      && r.det.ring == (d.ring + r.embeddings)[|r.embeddings|..]
      && ClassifiesRing(e, d.ring, r.embeddings, r.scores)
    ensures d.coolingDown || !d.speech.active ==> r.events == [] && r.det.coolingDown == d.coolingDown
    ensures d.speech.active && !d.coolingDown ==>
      r.events == Gated(r.scores) && (Detects(r.events) <==> AnyDetect(r.scores))
    ensures r.det.coolingDown <==> d.coolingDown || Detects(r.events)
    ensures forall i | 0 <= i < |r.events| :: r.events[i].Detected? ==> i == |r.events| - 1
  {
    var mel := QueuedMel(e, d, frame);
    var w := Windows(e, mel, d.ring, d.speech.active, d.coolingDown);
    WindowsGate(e, mel, d.ring, d.speech.active, d.coolingDown);
    GatedDetects(w.scores);
    WindowsEmbedSlidingWindows(e, mel, d.ring, d.speech.active, d.coolingDown);
    var r := Inference(d.(mel := w.mel, ring := w.ring, coolingDown := w.coolingDown),
                       |w.scores|, w.embeddings, w.scores, w.events);
    if |d.ring| > 0 then
      WindowsRingFifo(e, mel, d.ring, d.speech.active, d.coolingDown);
      WindowsClassifyRing(e, mel, d.ring, d.speech.active, d.coolingDown);
      r
    else
      r
  }

  /** The `listening_ww` branch of the frame handler: the VAD step, the
      hangover update, then inference with the updated speech flag. */
  function ListenStep(e: Engines, d: Detector, frame: AudioFrame): (r: Inference)
    ensures r.det.speech == SpeechActivity.Step(d.speech, RunVad(e, frame, d.vad).0)
    ensures r.det.vad == RunVad(e, frame, d.vad).1
    ensures Valid(d) ==> Valid(r.det)
    ensures |r.det.mel| + WindowStride * r.windows == |d.mel| + MelPerFrame
    ensures d.coolingDown ==> r.events == [] && r.det.coolingDown
    ensures r.events != [] ==> r.det.speech.active
    ensures r.det.coolingDown <==> d.coolingDown || Detects(r.events)
    // inference sees the freshly updated speech flag
    ensures r.det.speech.active && !d.coolingDown ==>
      r.events == Gated(r.scores) && (Detects(r.events) <==> AnyDetect(r.scores))
    ensures |r.scores| == r.windows && |r.embeddings| == r.windows
    ensures |d.ring| > 0 ==>
      && |r.det.ring| == |d.ring|
      && r.det.ring == (d.ring + r.embeddings)[|r.embeddings|..]
      && ClassifiesRing(e, d.ring, r.embeddings, r.scores)
    ensures WindowStride * r.windows <= |QueuedMel(e, d, frame)|
      && r.det.mel == QueuedMel(e, d, frame)[WindowStride * r.windows..]
    ensures EmbedsWindows(e, QueuedMel(e, d, frame), r.embeddings)
  {
    var vad := RunVad(e, frame, d.vad);
    RunInference(e, d.(vad := vad.1, speech := SpeechActivity.Step(d.speech, vad.0)), frame)
  }

  /** Listening over a run of frames, oldest first, totalling the windows. */
  function ListenRun(e: Engines, d: Detector, frames: seq<AudioFrame>): Inference
    decreases |frames|
  {
    if |frames| == 0 then Inference(d, 0, [], [], [])
    else
      var first := ListenStep(e, d, frames[0]);
      var rest := ListenRun(e, first.det, frames[1..]);
      Inference(rest.det, first.windows + rest.windows, first.embeddings + rest.embeddings,
                first.scores + rest.scores, first.events + rest.events)
  }

  /** Mel-queue accounting: every frame adds 5 mel frames and every window
      removes 8, so from a reset the queue holds 5*frames - 8*windows. */
  lemma {:induction false} MelQueueAccounting(e: Engines, d: Detector, frames: seq<AudioFrame>)
    ensures var r := ListenRun(e, d, frames);
      |r.det.mel| + WindowStride * r.windows == |d.mel| + MelPerFrame * |frames|
    ensures d == ResetState() ==> var r := ListenRun(e, d, frames);
      |r.det.mel| == MelPerFrame * |frames| - WindowStride * r.windows
    decreases |frames|
  {
    if |frames| > 0 {
      MelQueueAccounting(e, ListenStep(e, d, frames[0]).det, frames[1..]);
    }
  }

  /** While the cooldown is on, listening reports nothing, however high the
      scores: the cooldown is only lifted from outside the frame stream. */
  lemma {:induction false} CooldownSilences(e: Engines, d: Detector, frames: seq<AudioFrame>)
    requires d.coolingDown
    ensures ListenRun(e, d, frames).events == []
    ensures ListenRun(e, d, frames).det.coolingDown
    decreases |frames|
  {
    if |frames| > 0 {
      CooldownSilences(e, ListenStep(e, d, frames[0]).det, frames[1..]);
    }
  }
}
